=== FILE: README.md ===
# Chat widget logic, modelled in Dafny

This project models the pure logic of the chat and voice widget front-ends
for a hosted conversational-AI voice service. It leaves out the rendering
and the vendor SDK and keeps the sequential decisions the components make:

- **Link-ifier** (`parseMessageWithLinks`, widget page): three passes cut a
  chat message into plain-text parts and link parts. The passes handle
  protocol URLs, then e-mail addresses, then bare `domain.tld[/path]`
  strings. Each pass re-splits only the plain strings the previous pass
  left. Each regex is modelled as a *matcher*: a function from a string to
  the spans of its matches. The only assumption is that those spans are
  non-empty, in bounds, sorted and non-overlapping (`Spans.ValidMatcher`).
  Passes 1 and 2 follow `String.prototype.split` with a capturing group:
  gap, match, gap, …, tail, and empty gaps are kept. Pass 3 follows the
  `exec`/`forEach` loop: empty gaps and an empty tail are dropped, and a
  string with no match is returned unchanged.
- **Widget chat log** (widget page): `addMessage` and every handler that
  writes the log or the connection flag: the SDK callbacks (`onConnect`,
  `onDisconnect`, `onMessage`, `onError`), starting a voice session, ending
  it, muting, typing and sending typed text. A run of these events keeps
  the log append-only.
- **Hybrid real-time chat** (`hybrid-realtime-ai.tsx`): the streaming-bubble
  rule of `addMessage`, the chunk accumulation of
  `handleStreamingTextResponse`, and the `handleTextSubmit` guard.
- **Conversational agent** (`conversational-ai-agent.tsx`): append-only
  messages, the text-submit guard, starting and stopping recording,
  turning a transcription into a message, and the live-transcript fold of
  `recognition.onresult`. A run of these events keeps the conversation
  append-only and leaves the component idle.
- **Composer** (Next.js app): the `handleSend` guard.

React state updates are written as functions from the state before an
event to the state after it. The model assumes that updates made in one
handler are applied in order, so the last one wins. Answers from code
outside the model are passed in as arguments. These include the SDK, the
network, the placeholder AI, the speech synthesis and the transcription
(`Options.Outcome`, `AgentChat.Services`, `HybridChat.Response`).
JavaScript's `trim` is modelled by `Strings.Trim` on strings of Unicode
characters, with the ECMAScript WhiteSpace and LineTerminator code points
as its whitespace set.

Beyond a few inline comments, the repository has no documentation or tests of
these rules, so every rule here follows the code. Where a comment and the code
differ, the model follows the code (see `HybridChat.FinalFollowsBubble` under
"## Left out").

Files: `options.dfy`, `sequences.dfy`, `strings.dfy`, `spans.dfy`, `linkify.dfy`,
`widget.dfy`, `hybrid_chat.dfy`, `agent_chat.dfy`, `composer.dfy`.

## Model

| member | source | states |
|---|---|---|
| `Strings.Trim` | City_of_Midland_Jacky2.0_Custom_UI/pages/widget.js:187-189 | `trim` returns a slice of the input, and everything cut off is whitespace. The result is empty exactly when the input is all whitespace; otherwise it starts and ends with a non-whitespace character. |
| `Linkify.SplitKeep` | City_of_Midland_Jacky2.0_Custom_UI/pages/widget.js:13-31 | Passes 1 and 2 produce `2k+1` pieces for `k` matches. Every link is of the pass's kind and carries the href that kind prescribes. |
| `Linkify.SplitKeepAlternates` | City_of_Midland_Jacky2.0_Custom_UI/pages/widget.js:15-30 | The split alternates strictly: gaps sit at even positions and the captured matches, which become links, at odd positions. |
| `Linkify.SplitKeepVisible` | City_of_Midland_Jacky2.0_Custom_UI/pages/widget.js:15-20 | The pieces of a split, read in order, give back exactly the string that was split. |
| `Linkify.SplitKeepLinks` | City_of_Midland_Jacky2.0_Custom_UI/pages/widget.js:15-20 | The link texts of passes 1 and 2 are exactly the matched substrings, in match order. |
| `Linkify.SplitKeepPart` | City_of_Midland_Jacky2.0_Custom_UI/pages/widget.js:15-20 | Each piece sits where `split` puts it: piece `2j` is the text between match `j-1` (or the start) and match `j` (or the end), and piece `2j+1` is the link to match `j`. |
| `Linkify.BareStep` | City_of_Midland_Jacky2.0_Custom_UI/pages/widget.js:53-61 | For one match, pass 3 pushes the gap only when it is non-empty, then the link to the matched text. |
| `Linkify.VisitMatch` | City_of_Midland_Jacky2.0_Custom_UI/pages/widget.js:52-64 | The `forEach` callback pushes the gap since `lastIndex` only when it is non-empty, then the link to the match. |
| `Linkify.BareStepVisible` | City_of_Midland_Jacky2.0_Custom_UI/pages/widget.js:53-63 | The parts pushed for one match cover the text from `lastIndex` to the end of the match. |
| `Linkify.SplitBareFrom` | City_of_Midland_Jacky2.0_Custom_UI/pages/widget.js:49-70 | Pass 3 pushes nothing at all exactly when no match is left and `lastIndex` is already at the end of the string. |
| `Linkify.SplitBareDropsEmpties` | City_of_Midland_Jacky2.0_Custom_UI/pages/widget.js:49-70 | Pass 3 cuts a string exactly as the `split` of passes 1 and 2 would, minus the empty gaps and the empty tail. |
| `Linkify.SplitBareFromShape` | City_of_Midland_Jacky2.0_Custom_UI/pages/widget.js:49-70 | Pass 3 never emits an empty string piece and never emits two strings in a row. All its links are bare-domain links with `"https://"` hrefs. |
| `Linkify.SplitBare` | City_of_Midland_Jacky2.0_Custom_UI/pages/widget.js:33-71 | A string with no bare-domain match comes back as the same single string. Otherwise the string pieces are non-empty and never adjacent. |
| `Linkify.WalkMatches` | City_of_Midland_Jacky2.0_Custom_UI/pages/widget.js:50-64 | After the `forEach` loop, `lastIndex` is the end of the last match. The k-th value it took is the k-th match's end. |
| `Linkify.SplitBareLoop` | City_of_Midland_Jacky2.0_Custom_UI/pages/widget.js:47-70 | The `forEach` loop builds exactly the `SplitBare` parts. After the k-th match, `lastIndex` equals that match's end, and these values strictly increase. |
| `Linkify.SplitBareFromVisible` | City_of_Midland_Jacky2.0_Custom_UI/pages/widget.js:49-70 | The parts of pass 3, read in order, give back exactly the string they were cut from. |
| `Linkify.SplitBareLinks` | City_of_Midland_Jacky2.0_Custom_UI/pages/widget.js:36-64 | The link texts of pass 3 are exactly the `exec` matches, in order. |
| `Linkify.Expand` | City_of_Midland_Jacky2.0_Custom_UI/pages/widget.js:13-34 | A link part passes through a pass as itself. A string part becomes a non-empty list of parts whose links are all of the pass's kind, with the prescribed href. |
| `Linkify.Pass` | City_of_Midland_Jacky2.0_Custom_UI/pages/widget.js:13-71 | A pass keeps every link's href consistent with its kind: the matched text, `"mailto:" + text` or `"https://" + text`. |
| `Linkify.PassVisible` | City_of_Midland_Jacky2.0_Custom_UI/pages/widget.js:13-71 | No pass loses, duplicates or reorders a visible character. |
| `Linkify.LinkPassesThrough` | City_of_Midland_Jacky2.0_Custom_UI/pages/widget.js:23-34 | A part that is already a link comes out of a later pass unchanged, between what its neighbours become. |
| `Linkify.PassKeepsOtherLinks` | City_of_Midland_Jacky2.0_Custom_UI/pages/widget.js:23-71 | A pass neither drops, alters nor reorders links made by earlier passes. Only strings are re-split. |
| `Linkify.PassKindLinks` | City_of_Midland_Jacky2.0_Custom_UI/pages/widget.js:13-71 | The links a pass makes are, in order, the matches its regex finds in each string part of its input. |
| `Linkify.PassKeepsKindLinks` | City_of_Midland_Jacky2.0_Custom_UI/pages/widget.js:23-71 | A pass leaves the links of every other kind exactly as they were, in order. |
| `Linkify.FirstPassIsSplit` | City_of_Midland_Jacky2.0_Custom_UI/pages/widget.js:11-21 | The URL pass over the message, which starts as one string, is the split of the message around its URL matches. |
| `Linkify.ParseMessageWithLinks` | City_of_Midland_Jacky2.0_Custom_UI/pages/widget.js:6-74 | Rendering the parts shows exactly the message, and every link carries the href prescribed by its kind. The URL links are the URL matches of the message, in order. The e-mail links are the e-mail matches in the strings pass 1 left, and the bare-domain links are the domain matches in the strings pass 2 left. The result is the e-mail and domain passes applied to the split of the message around its URL matches. |
| `Widget.AddMessage` | City_of_Midland_Jacky2.0_Custom_UI/pages/widget.js:128-130 | Exactly one `{type, content}` entry is added at the end, and earlier entries are unchanged. |
| `Widget.OnMessage` | City_of_Midland_Jacky2.0_Custom_UI/pages/widget.js:103-111 | A message is logged only when its text is truthy. It is logged as `user` exactly when `source` or `role` is `"user"`, and as `agent` otherwise. |
| `Widget.OnDisconnect` | City_of_Midland_Jacky2.0_Custom_UI/pages/widget.js:92-102 | After a disconnect the page is disconnected. An error entry is added exactly for close code 1006. |
| `Widget.OnConnect` | City_of_Midland_Jacky2.0_Custom_UI/pages/widget.js:85-91 | The page becomes connected and nothing is logged. |
| `Widget.OnError` | City_of_Midland_Jacky2.0_Custom_UI/pages/widget.js:115-118 | The SDK error's message is logged as one `error` entry prefixed with "Error: ". |
| `Widget.EndConversation` | City_of_Midland_Jacky2.0_Custom_UI/pages/widget.js:180-183 | Ending the conversation logs "Conversation ended" and leaves the connection flag to `onDisconnect`. |
| `Widget.TypeText` | City_of_Midland_Jacky2.0_Custom_UI/pages/widget.js:345 | The input box holds exactly what was typed; the log is untouched. |
| `Widget.HandleConnect` | City_of_Midland_Jacky2.0_Custom_UI/pages/widget.js:132-178 | A connected page ignores the click. Otherwise the log gains "Requesting microphone access..." once the audio context is unlocked, then "Connecting to Jacky..." once the microphone is granted, then one error entry if a step threw. |
| `Widget.ConnectFailureExplained` | City_of_Midland_Jacky2.0_Custom_UI/pages/widget.js:170-176 | A failed connect ends with an error entry, and that entry is the permission message exactly when the error is a `NotAllowedError` or `PermissionDeniedError`. |
| `Widget.ToggleMute` | City_of_Midland_Jacky2.0_Custom_UI/pages/widget.js:232-240 | Toggling logs "Microphone unmuted" when the SDK was muted and "Microphone muted" otherwise. |
| `Widget.SendText` | City_of_Midland_Jacky2.0_Custom_UI/pages/widget.js:185-230 | Whitespace-only input changes nothing. Otherwise the input is cleared and the trimmed text is sent. On a connected page it is logged as a `user` entry, followed by an error entry if sending threw. On a disconnected page "Connecting to Jacky..." comes first; if connecting fails, only the error is logged and nothing is sent. |
| `Widget.SentTextIsTrimmed` | City_of_Midland_Jacky2.0_Custom_UI/pages/widget.js:187-189 | Sent text has no surrounding whitespace and is not blank. |
| `Widget.LogIsAppendOnly` | City_of_Midland_Jacky2.0_Custom_UI/pages/widget.js:85-240 | Over any sequence of page events (every handler that writes the log) the earlier log is a prefix of the later one. |
| `HybridChat.AddMessage` | components/hybrid-realtime-ai.tsx:55-72 | A streaming add over a streaming last message replaces it, so the length is unchanged. Every other add appends. The new message ends the list, and all messages before it are unchanged. |
| `HybridChat.AddKeepsNoAdjacentStreaming` | components/hybrid-realtime-ai.tsx:64-72 | `addMessage` preserves the invariant that no two neighbouring messages are both streaming. |
| `HybridChat.BubbleReplaced` | components/hybrid-realtime-ai.tsx:64-69 | A streaming update over the bubble of an earlier update rewrites that bubble in place, so the list keeps one bubble. |
| `HybridChat.StreamingUpdateOverSettled` | components/hybrid-realtime-ai.tsx:66-69 | A streaming update keeps the list minus its trailing streaming bubble, then adds the new bubble. |
| `HybridChat.StreamResponse` | components/hybrid-realtime-ai.tsx:79-135 | The k-th streaming update's content is chunks 1..k concatenated. With no reader the final text is empty. The list ends with the bubble (if any chunk arrived) followed by the final message with the full text. A non-OK response adds nothing. Streaming is off afterwards. |
| `HybridChat.UpdatesGrow` | components/hybrid-realtime-ai.tsx:104-115 | Each streaming update's content is a prefix of every later update's content. |
| `HybridChat.UpdateBeforeFinal` | components/hybrid-realtime-ai.tsx:104-126 | Each streaming update's content is a prefix of the final message's text. |
| `HybridChat.FinalFollowsBubble` | components/hybrid-realtime-ai.tsx:104-126 | Finalising never replaces the streaming bubble. The bubble stays, and a final message with the same text follows it. |
| `HybridChat.SubmitText` | components/hybrid-realtime-ai.tsx:180-191 | Nothing happens if the trimmed input is empty or a reply is streaming. Otherwise the input is cleared, a final user message with the trimmed text is appended, that text is requested, and the streaming flag is left to the request. |
| `HybridChat.RequestIsTrimmed` | components/hybrid-realtime-ai.tsx:181-183 | The requested text has no surrounding whitespace and is not blank. |
| `HybridChat.SubmitAndStream` | components/hybrid-realtime-ai.tsx:79-191 | A submit clears the input and ends with streaming off. For an OK response the list gains, in order, the trimmed user message, the streaming bubble (if any chunk arrived) and the final reply. For a non-OK response it gains only the user message. |
| `AgentChat.AddMessage` | components/conversational-ai-agent.tsx:68-78 | Exactly one message is appended at the end, and earlier messages are unchanged. |
| `AgentChat.ProcessUserMessage` | components/conversational-ai-agent.tsx:177-204 | The conversation gains exactly one assistant message when the reply was generated and, with voice output on, the speech was synthesised, and nothing otherwise. Its content is the reply, and its `audioUrl` is the speech URL with voice output on and absent otherwise. Playback starts only for a non-empty URL. |
| `AgentChat.HandleTextSubmit` | components/conversational-ai-agent.tsx:81-101 | Nothing happens if the trimmed input is empty or processing is under way. Otherwise the conversation gains the user message with the untrimmed input, then the assistant reply exactly when processing succeeded, and nothing else. The input is cleared, `isProcessing` is false afterwards, playback starts as in `processUserMessage`, and recording and the live transcript are untouched. |
| `AgentChat.HandleVoiceToggle` | components/conversational-ai-agent.tsx:104-148 | Stopping sets recording off and clears the transcript. Starting turns recording on only if the microphone opened. Messages, input, `isProcessing` and `isPlaying` are untouched. |
| `AgentChat.ProcessAudioInput` | components/conversational-ai-agent.tsx:151-174 | A truthy transcription adds the user message (content = transcription) followed by the assistant reply exactly when processing succeeded, and nothing else. An empty or failed transcription adds nothing and starts no playback. `isProcessing` is false afterwards; recording and the live transcript are untouched. |
| `AgentChat.OnResult` | components/conversational-ai-agent.tsx:216-229 | The interim text concatenates non-final transcripts from `resultIndex` on. A non-empty interim text becomes the transcript. Otherwise a final result clears it, and if there is none it stays unchanged. This is the transcript `TranscriptAfter` gives, which event runs use. |
| `AgentChat.MessagesAreAppendOnly` | components/conversational-ai-agent.tsx:68-204 | Over any sequence of typing, submits, recording toggles, transcriptions and recognition results, the earlier conversation is a prefix of the later one. |
| `AgentChat.ProcessingEndsFalse` | components/conversational-ai-agent.tsx:81-174 | Every submit and every finished recording sets `isProcessing` back to false, so a component that starts idle is idle between the events of any run. |
| `AgentChat.InterimAgrees` | components/conversational-ai-agent.tsx:217-225 | The handler's accumulation equals the front-to-back concatenation of non-final transcripts. |
| `Composer.HandleSend` | nextjs-conversational-ai/app/chat/components/Composer.tsx:6-11 | `onSend` is called exactly when the draft is not all whitespace, and it receives the untrimmed draft. The draft is reset to `""` only when `onSend` returns; if it throws, the draft is kept. A blank draft is neither sent nor cleared. |
| `Composer.SecondSendIsIgnored` | nextjs-conversational-ai/app/chat/components/Composer.tsx:6-11 | After a send that returned, a second attempt sends nothing and leaves the draft as it is. After a send that threw, the second attempt sends the same draft again. |

## Left out

- Regular-expression semantics (character classes, `\b`, the TLD list, the `i` flag) are not modelled. Each regex is an abstract matcher whose spans are assumed non-empty, in bounds, sorted and non-overlapping.
- The stateful `lastIndex` of `.test` on the global regexes in passes 1 and 2 is not modelled. A split piece counts as a link exactly when it is a captured match (odd position).
- JSX rendering, CSS classes, React keys, element `key`s, `target`/`rel` attributes, scrolling, hooks and re-render timing are left out.
- Timestamps and ids (`Date.now`, `Math.random`) are not modelled.
- The vendor SDK session lifecycle is not modelled: `startSession`, `endSession`, `mute`/`unmute`, and the volume and mode callbacks. Only the outcomes that change the log are passed in.
- `notifyParent`/`postMessage` and expand/collapse are left out: they touch neither the log nor the connection flag.
- Asynchronous handlers (`handleConnect`, `handleSendText`, `handleStreamingTextResponse`, `handleTextSubmit`, `processAudioInput`) are treated as atomic steps. In the source, other events can run while they await the network, the SDK or the 1.5 s delay. An `onConnect` or the agent's first `onMessage`, for example, can log entries between "Connecting to Jacky..." and the user entry. The model does not cover those interleavings.
- `Widget.HandleConnect`: whether `audioContext.resume` is reached depends on the browser; a failure there is one of the given outcomes. The microphone stream and the signed URL themselves are not modelled.
- `Widget.OnMessage`: `message.message` is modelled as an optional string. Other truthy non-string values are not modelled.
- `streamAudioChunk`, `isMuted` and all audio and microphone handling are left out: they are media I/O with no effect on the message list.
- The `onMessage`/`onError` callbacks that the hybrid and agent components invoke are not modelled.
- `HybridChat.StreamResponse`: the `AbortError` path (`handleStopStreaming`) and a reader that fails part-way through a stream are not modelled. Chunks are given as decoded strings, not bytes.
- The placeholder services `generateAIResponse`, `transcribeAudio` and `generateSpeech` are not modelled. Their results are arguments, with `None` standing for a thrown error.
- Speech-recognition setup (`webkitSpeechRecognition`, `continuous`, `lang`, `start`) is left out. Each result is reduced to its first alternative's transcript and its `isFinal` flag.
- Keyboard shortcuts are left out: they only call the modelled handlers.
- `useChat.ts` and the conversation API route are thin wrappers over a service that is not part of this model.
- The other presentational and config files are left out.
- `HybridChat.FinalFollowsBubble`: the comment "Finalize the message" reads as turning the streaming bubble into the final message. The code instead appends a second, non-streaming copy and leaves the bubble with `isStreaming: true`. The model follows the code and does not promise a single final message.
- `Strings.Trim`: Dafny strings are sequences of Unicode scalar values, whereas JavaScript strings are UTF-16 and may hold lone surrogates; such strings are not modelled.
- `Strings.Trim`: the whitespace set is that of ECMAScript with the Unicode Zs category as it stands today. Characters that later Unicode versions add to Zs are not included.

=== FILE: agent_chat.dfy ===
/** The conversational AI agent component: text and voice input feeding an
    append-only conversation, and a live "Listening:" transcript folded
    from speech-recognition results. The AI reply, the speech synthesis and
    the transcription service are outside the model; what they returned is
    passed in. */
module AgentChat {
  import opened Options
  import opened Strings

  datatype Role = User | Assistant

  /** A conversation message (id and timestamp are not modelled). */
  datatype Message = Message(role: Role, content: string, transcription: Option<string>, audioUrl: Option<string>)

  datatype AgentState = AgentState(
    messages: seq<Message>,
    textInput: string,
    isRecording: bool,
    isProcessing: bool,
    isPlaying: bool,
    realTimeTranscript: string)

  /** What the services answered while one user message was processed: the
      generated reply (`None` when generation threw) and the synthesised
      speech URL (`None` when synthesis threw). */
  datatype Services = Services(reply: Option<string>, speech: Option<string>)

  /** `addMessage`: exactly one message is appended, earlier ones are kept. */
  function AddMessage(msgs: seq<Message>, m: Message): (r: seq<Message>)
    ensures |r| == |msgs| + 1 && r[..|msgs|] == msgs && r[|msgs|] == m
  {
    msgs + [m]
  }

  /** Whether processing a message succeeds: the reply was generated and,
      with voice output on, its speech was synthesised. */
  predicate Replied(voiceOut: bool, svc: Services) {
    svc.reply.Some? && (voiceOut ==> svc.speech.Some?)
  }

  /** What processing a message adds: the assistant reply, carrying the
      speech URL when voice output is on, or nothing when a service threw. */
  function Reply(voiceOut: bool, svc: Services): seq<Message> {
    if Replied(voiceOut, svc) then
      [Message(Assistant, svc.reply.value, None, if voiceOut then svc.speech else None)]
    else []
  }

  /** Whether processing a message starts playback: voice output is on and
      a non-empty speech URL came back with the reply. */
  predicate Plays(voiceOut: bool, svc: Services) {
    voiceOut && svc.reply.Some? && svc.speech.Some? && svc.speech.value != []
  }

  /** `processUserMessage`: the reply is added as an assistant message,
      carrying the speech URL when voice output is on (enabled and not
      muted); any failure adds nothing. Playback starts only when a URL
      was attached. */
  function ProcessUserMessage(st: AgentState, voiceOut: bool, svc: Services): (r: AgentState)
    ensures r.messages == st.messages + Reply(voiceOut, svc)
    ensures r.isPlaying == (st.isPlaying || Plays(voiceOut, svc))
    ensures r.isProcessing == st.isProcessing && r.textInput == st.textInput
    ensures r.isRecording == st.isRecording && r.realTimeTranscript == st.realTimeTranscript
  {
    match svc.reply
    case None => st
    case Some(reply) =>
      if voiceOut then
        match svc.speech
        case None => st
        case Some(url) =>
          st.(messages := AddMessage(st.messages, Message(Assistant, reply, None, Some(url))),
              isPlaying := st.isPlaying || url != [])
      else
        st.(messages := AddMessage(st.messages, Message(Assistant, reply, None, None)))
  }

  /** The condition under which `handleTextSubmit` does nothing. */
  predicate SubmitIgnored(st: AgentState) {
    IsBlank(st.textInput) || st.isProcessing
  }

  /** `handleTextSubmit`: nothing happens when the trimmed input is empty or
      a message is being processed. Otherwise the user message is the input
      exactly as typed (not trimmed), the input is cleared, the message is
      processed, and `isProcessing` is false again at the end whether
      processing succeeded or not. */
  function HandleTextSubmit(st: AgentState, voiceOut: bool, svc: Services): (r: AgentState)
    ensures SubmitIgnored(st) ==> r == st
    ensures !SubmitIgnored(st) ==>
      && r.textInput == ""
      && !r.isProcessing
      && r.messages == st.messages + [Message(User, st.textInput, None, None)] + Reply(voiceOut, svc)
      && r.isPlaying == (st.isPlaying || Plays(voiceOut, svc))
    ensures r.isRecording == st.isRecording && r.realTimeTranscript == st.realTimeTranscript
  {
    if Trim(st.textInput) == [] || st.isProcessing then st
    else
      var withUser := st.(messages := AddMessage(st.messages, Message(User, st.textInput, None, None)),
                          textInput := "", isProcessing := true);
      var processed := ProcessUserMessage(withUser, voiceOut, svc);
      processed.(isProcessing := false)
  }

  /** `handleVoiceToggle`. Stopping a recording clears the live transcript;
      starting one succeeds only when the microphone could be opened
      (`micGranted`), and otherwise changes nothing. */
  function HandleVoiceToggle(st: AgentState, micGranted: bool): (r: AgentState)
    ensures st.isRecording ==> !r.isRecording && r.realTimeTranscript == ""
    ensures !st.isRecording ==> r.isRecording == micGranted && r.realTimeTranscript == st.realTimeTranscript
    ensures r.messages == st.messages && r.textInput == st.textInput
    ensures r.isProcessing == st.isProcessing && r.isPlaying == st.isPlaying
  {
    if st.isRecording then st.(isRecording := false, realTimeTranscript := "")
    else if micGranted then st.(isRecording := true)
    else st
  }

  /** `processAudioInput`: once the recording is transcribed, a truthy
      transcription becomes a user message (with itself as content and as
      transcription) and is processed; an empty or failed transcription
      adds nothing. `isProcessing` is false at the end. */
  function ProcessAudioInput(st: AgentState, transcription: Option<string>, voiceOut: bool, svc: Services): (r: AgentState)
    ensures !r.isProcessing && r.textInput == st.textInput
    ensures r.isRecording == st.isRecording && r.realTimeTranscript == st.realTimeTranscript
    ensures (transcription.None? || transcription.value == []) ==>
      r.messages == st.messages && r.isPlaying == st.isPlaying
    ensures transcription.Some? && transcription.value != [] ==>
      && r.messages == st.messages + [Message(User, transcription.value, transcription, None)] + Reply(voiceOut, svc)
      && r.isPlaying == (st.isPlaying || Plays(voiceOut, svc))
  {
    var busy := st.(isProcessing := true);
    var done :=
      match transcription
      case Some(t) =>
        if t != [] then
          ProcessUserMessage(busy.(messages := AddMessage(busy.messages, Message(User, t, transcription, None))), voiceOut, svc)
        else busy
      case None => busy;
    done.(isProcessing := false)
  }

  /* ---------------------------------------------------------------------
     Runs of events.
     --------------------------------------------------------------------- */

  /** Everything that can happen to the component. What the services and
      the microphone answered travels with the event. */
  datatype Event =
    | Type(text: string)
    | Submit(voiceOut: bool, svc: Services)
    | VoiceToggle(micGranted: bool)
    | AudioDone(transcription: Option<string>, voiceOut: bool, svc: Services)
    | Results(results: seq<SpeechResult>, resultIndex: nat)

  /** The transcript `recognition.onresult` leaves: the interim text when
      there is one, otherwise empty if some walked result was final,
      otherwise the transcript as it was. */
  function TranscriptAfter(transcript: string, results: seq<SpeechResult>, resultIndex: nat): string {
    var interim := Interim(Pending(results, resultIndex));
    if interim != [] then interim
    else if AnyFinal(Pending(results, resultIndex)) then []
    else transcript
  }

  function Step(st: AgentState, e: Event): AgentState {
    match e
    case Type(text) => st.(textInput := text)
    case Submit(voiceOut, svc) => HandleTextSubmit(st, voiceOut, svc)
    case VoiceToggle(micGranted) => HandleVoiceToggle(st, micGranted)
    case AudioDone(transcription, voiceOut, svc) => ProcessAudioInput(st, transcription, voiceOut, svc)
    case Results(results, resultIndex) =>
      st.(realTimeTranscript := TranscriptAfter(st.realTimeTranscript, results, resultIndex))
  }

  function Run(st: AgentState, events: seq<Event>): AgentState
    decreases |events|
  {
    if events == [] then st else Run(Step(st, events[0]), events[1..])
  }

  /** The conversation is append-only: whatever happens, every earlier
      message stays where it was. */
  lemma {:induction false} MessagesAreAppendOnly(st: AgentState, events: seq<Event>)
    ensures st.messages <= Run(st, events).messages
    decreases |events|
  {
    if events != [] {
      var next := Step(st, events[0]);
      assert st.messages <= next.messages;
      MessagesAreAppendOnly(next, events[1..]);
    }
  }

  /** Every submit or finished recording sets `isProcessing` back to false
      before it ends, so a component that starts idle is idle again between
      events of any run. */
  lemma {:induction false} ProcessingEndsFalse(st: AgentState, events: seq<Event>)
    requires !st.isProcessing
    ensures !Run(st, events).isProcessing
    decreases |events|
  {
    if events != [] {
      var next := Step(st, events[0]);
      assert !next.isProcessing;
      ProcessingEndsFalse(next, events[1..]);
    }
  }

  /* ---------------------------------------------------------------------
     The live transcript.
     --------------------------------------------------------------------- */

  /** One entry of `event.results`: the transcript of its first alternative
      and whether it is final. */
  datatype SpeechResult = SpeechResult(transcript: string, isFinal: bool)

  /** The results the handler walks: those from `resultIndex` to the end. */
  function Pending(results: seq<SpeechResult>, resultIndex: nat): seq<SpeechResult> {
    if resultIndex <= |results| then results[resultIndex..] else []
  }

  /** The interim text: the transcripts of the non-final results, in order. */
  function Interim(rs: seq<SpeechResult>): string {
    if rs == [] then []
    else Interim(rs[..|rs| - 1]) + (if rs[|rs| - 1].isFinal then [] else rs[|rs| - 1].transcript)
  }

  /** Some result is final. */
  predicate AnyFinal(rs: seq<SpeechResult>) {
    exists k :: 0 <= k < |rs| && rs[k].isFinal
  }

  /** `recognition.onresult`, the way the handler runs: each final result
      clears the transcript, each non-final one is added to the interim
      text, and a non-empty interim text is shown at the end; the last
      state update wins. The result is the interim text when there is one,
      otherwise empty if some walked result was final, otherwise the
      transcript as it was. */
  method OnResult(transcript: string, results: seq<SpeechResult>, resultIndex: nat)
    returns (shown: string, interim: string)
    ensures interim == Interim(Pending(results, resultIndex))
    ensures interim != [] ==> shown == interim
    ensures interim == [] && AnyFinal(Pending(results, resultIndex)) ==> shown == []
    ensures interim == [] && !AnyFinal(Pending(results, resultIndex)) ==> shown == transcript
    ensures shown == TranscriptAfter(transcript, results, resultIndex)
  {
    interim := "";
    shown := transcript;
    var i := resultIndex;
    if i < |results| {
      while i < |results|
        invariant resultIndex <= i <= |results|
        invariant interim == Interim(results[resultIndex..i])
        invariant shown == (if AnyFinal(results[resultIndex..i]) then [] else transcript)
      {
        WalkOneMore(results, resultIndex, i);
        if results[i].isFinal {
          shown := "";
        } else {
          interim := interim + results[i].transcript;
        }
        i := i + 1;
      }
      assert results[resultIndex..i] == Pending(results, resultIndex);
    } else {
      assert Pending(results, resultIndex) == [];
    }
    if interim != [] {
      shown := interim;
    }
  }

  /** Walking one more result adds its piece to the interim text, and makes
      a final result seen exactly when it is final or one was seen before. */
  lemma WalkOneMore(results: seq<SpeechResult>, lo: nat, i: nat)
    requires lo <= i < |results|
    ensures Interim(results[lo..i + 1])
            == Interim(results[lo..i]) + (if results[i].isFinal then [] else results[i].transcript)
    ensures AnyFinal(results[lo..i + 1]) <==> AnyFinal(results[lo..i]) || results[i].isFinal
  {
    var walked := results[lo..i + 1];
    assert walked[..|walked| - 1] == results[lo..i];
    assert walked[|walked| - 1] == results[i];
    if AnyFinal(walked) && !results[i].isFinal {
      var k :| 0 <= k < |walked| && walked[k].isFinal;
      assert results[lo..i][k] == walked[k];
    }
    if AnyFinal(results[lo..i]) {
      var k :| 0 <= k < i - lo && results[lo..i][k].isFinal;
      assert walked[k] == results[lo..i][k];
    }
  }

  /** A declarative reading of the interim text: the concatenation of the
      transcripts of the non-final results, front to back. */
  function InterimFront(rs: seq<SpeechResult>): string {
    if rs == [] then []
    else (if rs[0].isFinal then [] else rs[0].transcript) + InterimFront(rs[1..])
  }

  /** The handler's back-to-front accumulation and the front-to-back
      reading agree. */
  lemma {:induction false} InterimAgrees(rs: seq<SpeechResult>)
    ensures Interim(rs) == InterimFront(rs)
    decreases |rs|
  {
    if rs != [] {
      var init := rs[..|rs| - 1];
      var last := rs[|rs| - 1];
      var piece := if last.isFinal then [] else last.transcript;
      InterimAgrees(init);
      if init == [] {
        assert rs == [last];
        assert InterimFront(rs) == piece + InterimFront([]);
      } else {
        InterimSnoc(init, last);
        assert init + [last] == rs;
      }
    }
  }

  /** Adding one result at the back adds its piece at the back. */
  lemma {:induction false} InterimSnoc(rs: seq<SpeechResult>, last: SpeechResult)
    ensures InterimFront(rs + [last]) == InterimFront(rs) + (if last.isFinal then [] else last.transcript)
    decreases |rs|
  {
    if rs == [] {
      assert [] + [last] == [last];
      assert [last][1..] == [];
    } else {
      assert (rs + [last])[1..] == rs[1..] + [last];
      InterimSnoc(rs[1..], last);
    }
  }
}

=== FILE: composer.dfy ===
/** The chat composer of the Next.js app: a draft that is handed to `onSend`
    and cleared, unless it is only whitespace. */
module Composer {
  import opened Options
  import opened Strings

  /** The result of `handleSend`: the draft afterwards and what `onSend`
      received, if it was called. */
  datatype SendResult = SendResult(draft: string, sent: Option<string>)

  /** `handleSend`: `onSend` is called exactly when the draft has a
      non-whitespace character, and it receives the draft untrimmed. The
      draft is reset only when `onSend` returns (`send` says whether it
      threw); a whitespace-only draft is neither sent nor cleared. */
  function HandleSend(draft: string, send: Outcome): (r: SendResult)
    ensures r.sent.Some? <==> !IsBlank(draft)
    ensures r.sent.Some? ==> r.sent.value == draft
    ensures r.sent.Some? && send.Succeeded? ==> r.draft == ""
    ensures r.sent.Some? && send.Failed? ==> r.draft == draft
    ensures r.sent.None? ==> r.draft == draft
  {
    if Trim(draft) != [] then
      match send
      case Succeeded => SendResult("", Some(draft))
      case Failed(_) => SendResult(draft, Some(draft))
    else SendResult(draft, None)
  }

  /** Pressing send twice in a row: after a send that returned, the second
      press neither sends nor changes the draft; after a send that threw,
      the second press hands the same draft to `onSend` again. */
  lemma SecondSendIsIgnored(draft: string, first: Outcome, second: Outcome)
    ensures var r := HandleSend(draft, first);
      first.Succeeded? ==> HandleSend(r.draft, second) == SendResult(r.draft, None)
    ensures var r := HandleSend(draft, first);
      first.Failed? && r.sent.Some? ==> HandleSend(r.draft, second).sent == Some(draft)
  {
  }
}

=== FILE: hybrid_chat.dfy ===
/** The hybrid real-time chat component: a message list in which a reply
    being streamed is shown as one bubble that each new chunk rewrites,
    followed by a final copy of the reply once the stream ends. */
module HybridChat {
  import opened Options
  import opened Strings

  datatype Role = User | Assistant

  /** A chat message (id and timestamp are not modelled). */
  datatype Message = Message(role: Role, content: string, isStreaming: bool)

  datatype HybridState = HybridState(messages: seq<Message>, textInput: string, isStreamingResponse: bool)

  /** The last message of the list is a streaming bubble. */
  predicate EndsStreaming(msgs: seq<Message>) {
    msgs != [] && msgs[|msgs| - 1].isStreaming
  }

  /** Whether `addMessage` overwrites the last message instead of appending:
      only a streaming update does, and only over a streaming bubble. */
  predicate Replaces(msgs: seq<Message>, isStreaming: bool) {
    isStreaming && EndsStreaming(msgs)
  }

  /** `addMessage`: the new message always ends the list. A streaming update
      over a streaming bubble takes that bubble's place; in every other case
      (empty list, final message, last message not streaming) it is
      appended. Every earlier message stays as it was. */
  function AddMessage(msgs: seq<Message>, role: Role, content: string, isStreaming: bool): (r: seq<Message>)
    ensures Replaces(msgs, isStreaming) ==> |r| == |msgs|
    ensures !Replaces(msgs, isStreaming) ==> |r| == |msgs| + 1 && r[..|msgs|] == msgs
    ensures r != [] && r[|r| - 1] == Message(role, content, isStreaming)
    ensures r[..|r| - 1] == msgs[..|r| - 1]
  {
    var m := Message(role, content, isStreaming);
    if Replaces(msgs, isStreaming) then msgs[..|msgs| - 1] + [m] else msgs + [m]
  }

  /** No two neighbouring messages are both streaming bubbles. */
  predicate NoAdjacentStreaming(msgs: seq<Message>) {
    forall i, j :: 0 <= i < |msgs| && 0 <= j < |msgs| && j == i + 1 ==> !(msgs[i].isStreaming && msgs[j].isStreaming)
  }

  /** `addMessage` never puts a streaming bubble next to another one: a
      streaming update either takes the old bubble's place or follows a
      message that is not streaming. */
  lemma AddKeepsNoAdjacentStreaming(msgs: seq<Message>, role: Role, content: string, isStreaming: bool)
    requires NoAdjacentStreaming(msgs)
    ensures NoAdjacentStreaming(AddMessage(msgs, role, content, isStreaming))
  {
    var r := AddMessage(msgs, role, content, isStreaming);
    forall i, j | 0 <= i < |r| && 0 <= j < |r| && j == i + 1
      ensures !(r[i].isStreaming && r[j].isStreaming)
    {
      assert r[i] == msgs[i];
      if j < |r| - 1 {
        assert r[j] == msgs[j];
      }
    }
  }

  /** The list without its trailing streaming bubble, if it has one: what
      a streaming update keeps of the list. */
  function Settled(msgs: seq<Message>): seq<Message> {
    if EndsStreaming(msgs) then msgs[..|msgs| - 1] else msgs
  }

  /** A streaming update leaves the settled part of the list in front of
      the new bubble. */
  lemma StreamingUpdateOverSettled(msgs: seq<Message>, content: string)
    ensures AddMessage(msgs, Assistant, content, true) == Settled(msgs) + [Message(Assistant, content, true)]
  {
  }

  /** A streaming update over the bubble of an earlier update rewrites that
      bubble in place. */
  lemma BubbleReplaced(msgs: seq<Message>, before: string, after: string)
    ensures AddMessage(Settled(msgs) + [Message(Assistant, before, true)], Assistant, after, true)
            == Settled(msgs) + [Message(Assistant, after, true)]
  {
    var withBubble := Settled(msgs) + [Message(Assistant, before, true)];
    assert withBubble[..|withBubble| - 1] == Settled(msgs);
  }

  /** How the streaming request ended: a non-OK HTTP status, or an OK
      response whose body reader (if there is one) yields these chunks. */
  datatype Response = NotOk | Ok(body: Option<seq<string>>)

  /** The chunks the reader delivered; none when there is no reader. */
  function ChunksOf(body: Option<seq<string>>): seq<string> {
    match body
    case None => []
    case Some(chunks) => chunks
  }

  /** The messages once a stream of `chunks` has been fully received:
      a streaming bubble with all the text (after the settled list) if any
      chunk arrived, followed by the final message with the same text. */
  function StreamedMessages(msgs: seq<Message>, chunks: seq<string>): seq<Message> {
    var text := Concat(chunks);
    (if chunks == [] then msgs else Settled(msgs) + [Message(Assistant, text, true)])
      + [Message(Assistant, text, false)]
  }

  /** `handleStreamingTextResponse`. Each chunk is appended to
      `accumulatedText` and shown as a streaming update (`updates` records
      the content of each one); then the whole text is added as a final
      message. A non-OK response adds nothing. Either way the component is
      no longer streaming afterwards. */
  method StreamResponse(st: HybridState, response: Response)
    returns (r: HybridState, updates: seq<string>)
    ensures !r.isStreamingResponse && r.textInput == st.textInput
    ensures response.NotOk? ==> r.messages == st.messages && updates == []
    ensures response.Ok? ==>
      var chunks := ChunksOf(response.body);
      && |updates| == |chunks|
      && (forall k :: 0 <= k < |chunks| ==> updates[k] == Concat(chunks[..k + 1]))
      && r.messages == StreamedMessages(st.messages, chunks)
  {
    if response.NotOk? {
      return st.(isStreamingResponse := false), [];
    }
    var chunks := ChunksOf(response.body);
    var msgs := st.messages;
    var accumulatedText := "";
    updates := [];
    var i := 0;
    while i < |chunks|
      invariant 0 <= i <= |chunks|
      invariant accumulatedText == Concat(chunks[..i])
      invariant |updates| == i
      invariant forall k :: 0 <= k < i ==> updates[k] == Concat(chunks[..k + 1])
      invariant i == 0 ==> msgs == st.messages
      invariant i > 0 ==> msgs == Settled(st.messages) + [Message(Assistant, accumulatedText, true)]
    {
      ConcatSnoc(chunks, i);
      var next := accumulatedText + chunks[i];
      if i == 0 {
        StreamingUpdateOverSettled(msgs, next);
      } else {
        BubbleReplaced(st.messages, accumulatedText, next);
      }
      accumulatedText := next;
      msgs := AddMessage(msgs, Assistant, accumulatedText, true);
      updates := updates + [accumulatedText];
      i := i + 1;
    }
    assert chunks[..i] == chunks;
    msgs := AddMessage(msgs, Assistant, accumulatedText, false);
    r := st.(messages := msgs, isStreamingResponse := false);
  }

  /** Each streaming update's content is a prefix of every later one's. */
  lemma UpdatesGrow(chunks: seq<string>, j: nat, k: nat)
    requires j <= k < |chunks|
    ensures Concat(chunks[..j + 1]) <= Concat(chunks[..k + 1])
  {
    ConcatMonotone(chunks, j + 1, k + 1);
  }

  /** Each streaming update's content is a prefix of the final message's. */
  lemma UpdateBeforeFinal(chunks: seq<string>, k: nat)
    requires k < |chunks|
    ensures Concat(chunks[..k + 1]) <= Concat(chunks)
  {
    ConcatPrefix(chunks, k + 1);
  }

  /** Finalising never replaces the streaming bubble: once at least one
      chunk arrived, the list ends with the bubble and, after it, a final
      message with the very same text. */
  lemma FinalFollowsBubble(msgs: seq<Message>, chunks: seq<string>)
    requires chunks != []
    ensures var r := StreamedMessages(msgs, chunks);
      && |r| >= 2
      && r[|r| - 2] == Message(Assistant, Concat(chunks), true)
      && r[|r| - 1] == Message(Assistant, Concat(chunks), false)
  {
  }

  /** The result of `handleTextSubmit`: the new state and the text passed on
      to the streaming request, if any. */
  datatype SubmitResult = SubmitResult(state: HybridState, request: Option<string>)

  /** `handleTextSubmit`: nothing happens when the trimmed input is empty or
      a reply is still streaming. Otherwise the input is cleared, the
      trimmed text is appended as a final user message, and it is what the
      streaming request is sent. */
  function SubmitText(st: HybridState): (r: SubmitResult)
    ensures (IsBlank(st.textInput) || st.isStreamingResponse) ==> r == SubmitResult(st, None)
    ensures !(IsBlank(st.textInput) || st.isStreamingResponse) ==>
      && r.request == Some(Trim(st.textInput))
      && r.state.textInput == ""
      && r.state.messages == st.messages + [Message(User, Trim(st.textInput), false)]
      && r.state.isStreamingResponse == st.isStreamingResponse
  {
    if Trim(st.textInput) == [] || st.isStreamingResponse then SubmitResult(st, None)
    else
      var text := Trim(st.textInput);
      SubmitResult(st.(textInput := "", messages := AddMessage(st.messages, User, text, false)), Some(text))
  }

  /** The submitted text has no surrounding whitespace left, and still has
      a character that is not whitespace. */
  lemma RequestIsTrimmed(st: HybridState)
    ensures var r := SubmitText(st);
      r.request.Some? ==> Trim(r.request.value) == r.request.value && !IsBlank(r.request.value)
  {
    TrimIdempotent(st.textInput);
  }

  /** A submitted message followed by its streamed reply: the input is
      cleared and streaming is over at the end; the list gains the trimmed
      user message, then (if any chunk arrived) the streaming bubble, then
      the final reply. A non-OK response leaves only the user message. */
  method SubmitAndStream(st: HybridState, response: Response) returns (r: HybridState)
    ensures (IsBlank(st.textInput) || st.isStreamingResponse) ==> r == st
    ensures !(IsBlank(st.textInput) || st.isStreamingResponse) ==>
      r.textInput == "" && !r.isStreamingResponse
    ensures !(IsBlank(st.textInput) || st.isStreamingResponse) && response.NotOk? ==>
      r.messages == st.messages + [Message(User, Trim(st.textInput), false)]
    ensures !(IsBlank(st.textInput) || st.isStreamingResponse) && response.Ok? ==>
      var chunks := ChunksOf(response.body);
      var text := Concat(chunks);
      r.messages == st.messages + [Message(User, Trim(st.textInput), false)]
        + (if chunks == [] then [] else [Message(Assistant, text, true)])
        + [Message(Assistant, text, false)]
  {
    var submitted := SubmitText(st);
    if submitted.request.None? {
      return st;
    }
    var updates;
    r, updates := StreamResponse(submitted.state, response);
  }
}

=== FILE: linkify.dfy ===
/** The widget's link-ifier (`parseMessageWithLinks`): a chat message is cut
    into plain-text parts and link parts by three successive passes, one
    each for protocol URLs, e-mail addresses and bare domains. Each pass
    re-splits only the plain-text parts the previous pass left. */
module Linkify {
  import opened Spans
  import opened Sequences

  /** Which pass produced a link; it decides how the href is built. */
  datatype LinkKind = ProtocolUrl | Email | BareDomain

  /** One piece of a rendered message: a plain string, or an anchor with its
      href and visible text. */
  datatype Part = Text(s: string) | Link(kind: LinkKind, href: string, text: string)

  /** The three regexes, as matchers: `https?://…`, the e-mail pattern and
      the bare `domain.tld[/path]` pattern. */
  datatype Matchers = Matchers(url: Matcher, email: Matcher, domain: Matcher)

  ghost predicate ValidMatchers(m: Matchers) {
    ValidMatcher(m.url) && ValidMatcher(m.email) && ValidMatcher(m.domain)
  }

  /** The href each pass gives a matched text. */
  function HrefFor(kind: LinkKind, text: string): string {
    match kind
    case ProtocolUrl => text
    case Email => "mailto:" + text
    case BareDomain => "https://" + text
  }

  function MakeLink(kind: LinkKind, text: string): Part {
    Link(kind, HrefFor(kind, text), text)
  }

  /** A link whose href is the one its kind prescribes for its text. */
  predicate WellBuilt(p: Part) {
    p.Link? ==> p.href == HrefFor(p.kind, p.text)
  }

  predicate AllWellBuilt(parts: seq<Part>) {
    forall i :: 0 <= i < |parts| ==> WellBuilt(parts[i])
  }

  /** Every link in `parts` came from the pass of the given kind. */
  predicate LinksOfKind(parts: seq<Part>, kind: LinkKind) {
    forall i :: 0 <= i < |parts| && parts[i].Link? ==> parts[i].kind == kind
  }

  /** No string part is empty. */
  predicate TextsNonEmpty(parts: seq<Part>) {
    forall k :: 0 <= k < |parts| && parts[k].Text? ==> parts[k].s != []
  }

  /** No two neighbouring parts are both strings. */
  predicate NoAdjacentTexts(parts: seq<Part>) {
    forall j, k :: 0 <= j < |parts| && 0 <= k < |parts| && k == j + 1 ==> parts[j].Link? || parts[k].Link?
  }

  /** Strings at even positions, links at odd ones. */
  predicate Alternates(parts: seq<Part>) {
    forall k :: 0 <= k < |parts| ==> (parts[k].Text? <==> k % 2 == 0)
  }

  /** What the reader sees of one part. */
  function Shown(p: Part): string {
    match p
    case Text(s) => s
    case Link(_, _, text) => text
  }

  /** The text a reader sees when the parts are rendered one after another. */
  function Visible(parts: seq<Part>): string {
    if parts == [] then [] else Shown(parts[0]) + Visible(parts[1..])
  }

  /** The visible texts of the link parts, in order. */
  function LinkTexts(parts: seq<Part>): seq<string> {
    if parts == [] then []
    else (if parts[0].Link? then [parts[0].text] else []) + LinkTexts(parts[1..])
  }

  /** The link parts that a pass of kind `kind` did not create, in order. */
  function OtherLinks(kind: LinkKind, parts: seq<Part>): seq<Part> {
    if parts == [] then []
    else (if parts[0].Link? && parts[0].kind != kind then [parts[0]] else [])
         + OtherLinks(kind, parts[1..])
  }

  /* ---------------------------------------------------------------------
     Passes 1 and 2: `part.split(regex)` with a capturing group, then each
     piece at an odd position (a match) becomes a link. The pieces between
     matches are kept even when they are empty.
     --------------------------------------------------------------------- */

  /** The split of `s[from..]` around the matches `spans[i..]`: gap, match,
      gap, …, match, tail, with every match turned into a link of `kind`. */
  function SplitKeep(kind: LinkKind, s: string, spans: seq<Span>, i: nat, from: nat): (r: seq<Part>)
    requires Resumable(s, spans, i, from)
    ensures |r| == 2 * (|spans| - i) + 1
    ensures LinksOfKind(r, kind) && AllWellBuilt(r)
    decreases |spans| - i
  {
    if i == |spans| then [Text(s[from..])]
    else
      var m := spans[i];
      [Text(s[from..m.start]), MakeLink(kind, s[m.start..m.end])]
        + SplitKeep(kind, s, spans, i + 1, m.end)
  }

  /** The split alternates strictly: strings at even positions, links at
      odd ones. */
  lemma {:induction false} SplitKeepAlternates(kind: LinkKind, s: string, spans: seq<Span>, i: nat, from: nat)
    requires Resumable(s, spans, i, from)
    ensures Alternates(SplitKeep(kind, s, spans, i, from))
    decreases |spans| - i
  {
    var r := SplitKeep(kind, s, spans, i, from);
    if i < |spans| {
      var m := spans[i];
      var head := [Text(s[from..m.start]), MakeLink(kind, s[m.start..m.end])];
      var rest := SplitKeep(kind, s, spans, i + 1, m.end);
      assert r == head + rest;
      SplitKeepAlternates(kind, s, spans, i + 1, m.end);
      forall k | 0 <= k < |r|
        ensures r[k].Text? <==> k % 2 == 0
      {
        if k < 2 {
          assert r[k] == head[k];
        } else {
          assert r[k] == rest[k - 2];
          assert (k - 2) % 2 == k % 2;
        }
      }
    }
  }

  /** Where the gap before match `k` starts when the walk began at match `i`
      with `from` consumed: at `from` for match `i`, else at the end of the
      previous match. */
  function GapFrom(spans: seq<Span>, i: nat, from: nat, k: nat): nat
    requires i <= k <= |spans|
  {
    if k == i then from else spans[k - 1].end
  }

  /** Where the gap before match `k` ends: at the match, or at the end of
      the string for the tail. */
  function GapTo(s: string, spans: seq<Span>, k: nat): nat
    requires k <= |spans|
  {
    if k < |spans| then spans[k].start else |s|
  }

  /** Where each piece of the split sits: piece `2(k-i)` is the gap before
      match `k` (the tail when `k` is past the last match), and piece
      `2(k-i)+1` is the link to match `k`. */
  lemma SplitKeepPart(kind: LinkKind, s: string, spans: seq<Span>, i: nat, from: nat, k: nat)
    requires Resumable(s, spans, i, from) && i <= k <= |spans|
    ensures GapFrom(spans, i, from, k) <= GapTo(s, spans, k) <= |s|
    ensures SplitKeep(kind, s, spans, i, from)[2 * (k - i)]
            == Text(s[GapFrom(spans, i, from, k)..GapTo(s, spans, k)])
    ensures k < |spans| ==>
      SplitKeep(kind, s, spans, i, from)[2 * (k - i) + 1] == MakeLink(kind, s[spans[k].start..spans[k].end])
  {
    SplitKeepGapAt(kind, s, spans, i, from, k);
    if k < |spans| {
      SplitKeepLinkAt(kind, s, spans, i, from, k);
    }
  }

  /** Piece `2(k-i)` of the split is the gap before match `k`. */
  lemma {:induction false} SplitKeepGapAt(kind: LinkKind, s: string, spans: seq<Span>, i: nat, from: nat, k: nat)
    requires Resumable(s, spans, i, from) && i <= k <= |spans|
    ensures GapFrom(spans, i, from, k) <= GapTo(s, spans, k) <= |s|
    ensures SplitKeep(kind, s, spans, i, from)[2 * (k - i)]
            == Text(s[GapFrom(spans, i, from, k)..GapTo(s, spans, k)])
    decreases k - i
  {
    if k > i {
      var m := spans[i];
      var head := [Text(s[from..m.start]), MakeLink(kind, s[m.start..m.end])];
      var rest := SplitKeep(kind, s, spans, i + 1, m.end);
      SplitKeepUnfold(kind, s, spans, i, from);
      SplitKeepGapAt(kind, s, spans, i + 1, m.end, k);
      assert GapFrom(spans, i + 1, m.end, k) == GapFrom(spans, i, from, k);
      IndexAfter(head, rest, 2 * (k - i));
    } else if i < |spans| {
      var m := spans[i];
      var head := [Text(s[from..m.start]), MakeLink(kind, s[m.start..m.end])];
      SplitKeepUnfold(kind, s, spans, i, from);
      IndexBefore(head, SplitKeep(kind, s, spans, i + 1, m.end), 0);
    }
  }

  /** Piece `2(k-i)+1` of the split is the link to match `k`. */
  lemma {:induction false} SplitKeepLinkAt(kind: LinkKind, s: string, spans: seq<Span>, i: nat, from: nat, k: nat)
    requires Resumable(s, spans, i, from) && i <= k < |spans|
    ensures SplitKeep(kind, s, spans, i, from)[2 * (k - i) + 1] == MakeLink(kind, s[spans[k].start..spans[k].end])
    decreases k - i
  {
    var m := spans[i];
    var head := [Text(s[from..m.start]), MakeLink(kind, s[m.start..m.end])];
    var rest := SplitKeep(kind, s, spans, i + 1, m.end);
    SplitKeepUnfold(kind, s, spans, i, from);
    if k > i {
      SplitKeepLinkAt(kind, s, spans, i + 1, m.end, k);
      IndexAfter(head, rest, 2 * (k - i) + 1);
    } else {
      IndexBefore(head, rest, 1);
    }
  }

  /* ---------------------------------------------------------------------
     Pass 3: the matches are collected with `exec` and walked in order; a
     gap is pushed only when non-empty, the tail only when non-empty, and a
     string with no match is returned as it is.
     --------------------------------------------------------------------- */

  /** The parts pass 3 builds for `s[from..]` from the matches `spans[i..]`,
      where `from` is the end of the previous match (`lastIndex`). */
  function SplitBareFrom(kind: LinkKind, s: string, spans: seq<Span>, i: nat, from: nat): (r: seq<Part>)
    requires Resumable(s, spans, i, from)
    ensures r == [] <==> i == |spans| && from == |s|
    decreases |spans| - i
  {
    if i == |spans| then
      if from < |s| then [Text(s[from..])] else []
    else
      BareStep(kind, s, spans[i], from) + SplitBareFrom(kind, s, spans, i + 1, spans[i].end)
  }

  /** The parts without the empty strings. */
  function DropEmpty(parts: seq<Part>): seq<Part> {
    if parts == [] then []
    else (if parts[0] == Text([]) then [] else [parts[0]]) + DropEmpty(parts[1..])
  }

  lemma {:induction false} DropEmptyAppend(a: seq<Part>, b: seq<Part>)
    ensures DropEmpty(a + b) == DropEmpty(a) + DropEmpty(b)
    decreases |a|
  {
    if a == [] {
      AppendEmpty(a, b);
      AppendEmpty(DropEmpty(a), DropEmpty(b));
    } else {
      TailOfAppend(a, b);
      assert (a + b)[0] == a[0];
      DropEmptyAppend(a[1..], b);
      AppendAssoc((if a[0] == Text([]) then [] else [a[0]]), DropEmpty(a[1..]), DropEmpty(b));
    }
  }

  /** Pass 3 cuts a string exactly as passes 1 and 2 do, except that it
      leaves out the empty gaps and an empty tail. */
  lemma {:induction false} SplitBareDropsEmpties(kind: LinkKind, s: string, spans: seq<Span>, i: nat, from: nat)
    requires Resumable(s, spans, i, from)
    ensures SplitBareFrom(kind, s, spans, i, from) == DropEmpty(SplitKeep(kind, s, spans, i, from))
    decreases |spans| - i
  {
    if i == |spans| {
      DropEmptyTail(s, from);
    } else {
      var m := spans[i];
      var head := [Text(s[from..m.start]), MakeLink(kind, s[m.start..m.end])];
      var rest := SplitKeep(kind, s, spans, i + 1, m.end);
      SplitKeepUnfold(kind, s, spans, i, from);
      assert SplitBareFrom(kind, s, spans, i, from)
             == BareStep(kind, s, m, from) + SplitBareFrom(kind, s, spans, i + 1, m.end);
      DropEmptyAppend(head, rest);
      DropEmptyStep(kind, s, m, from);
      SplitBareDropsEmpties(kind, s, spans, i + 1, m.end);
    }
  }

  /** Dropping the empty strings from one gap-and-link pair leaves what pass
      3 pushes for that match. */
  lemma DropEmptyStep(kind: LinkKind, s: string, m: Span, from: nat)
    requires from <= m.start < m.end <= |s|
    ensures DropEmpty([Text(s[from..m.start]), MakeLink(kind, s[m.start..m.end])]) == BareStep(kind, s, m, from)
  {
    var gap := s[from..m.start];
    var link := MakeLink(kind, s[m.start..m.end]);
    assert [Text(gap), link][1..] == [link];
    assert [link][1..] == [];
    assert DropEmpty([link]) == [link];
    assert gap == [] <==> from == m.start;
  }

  /** Dropping the empty strings from the tail leaves it only if non-empty. */
  lemma DropEmptyTail(s: string, from: nat)
    requires from <= |s|
    ensures DropEmpty([Text(s[from..])]) == if from < |s| then [Text(s[from..])] else []
  {
    assert [Text(s[from..])][1..] == [];
    assert s[from..] == [] <==> from == |s|;
  }

  /** One step of the split: the gap and the link of match `i`, then the
      split of the rest. */
  lemma SplitKeepUnfold(kind: LinkKind, s: string, spans: seq<Span>, i: nat, from: nat)
    requires Resumable(s, spans, i, from) && i < |spans|
    ensures SplitKeep(kind, s, spans, i, from)
            == [Text(s[from..spans[i].start]), MakeLink(kind, s[spans[i].start..spans[i].end])]
               + SplitKeep(kind, s, spans, i + 1, spans[i].end)
  {
  }

  /** Pass 3 never emits an empty string part nor two strings in a row, and
      all its links are bare-domain links with the prescribed href. */
  lemma {:induction false} SplitBareFromShape(kind: LinkKind, s: string, spans: seq<Span>, i: nat, from: nat)
    requires Resumable(s, spans, i, from)
    ensures var r := SplitBareFrom(kind, s, spans, i, from);
      TextsNonEmpty(r) && NoAdjacentTexts(r) && LinksOfKind(r, kind) && AllWellBuilt(r)
    decreases |spans| - i
  {
    if i < |spans| {
      var step := BareStep(kind, s, spans[i], from);
      var rest := SplitBareFrom(kind, s, spans, i + 1, spans[i].end);
      assert SplitBareFrom(kind, s, spans, i, from) == step + rest;
      SplitBareFromShape(kind, s, spans, i + 1, spans[i].end);
      BareStepShape(kind, s, spans[i], from);
      BarePartsAppend(kind, step, rest);
    }
  }

  /** Appending parts after a run that ends in a link keeps pass 3's shape. */
  lemma BarePartsAppend(kind: LinkKind, a: seq<Part>, b: seq<Part>)
    requires a != [] && a[|a| - 1].Link?
    requires TextsNonEmpty(a) && NoAdjacentTexts(a) && LinksOfKind(a, kind) && AllWellBuilt(a)
    requires TextsNonEmpty(b) && NoAdjacentTexts(b) && LinksOfKind(b, kind) && AllWellBuilt(b)
    ensures TextsNonEmpty(a + b) && NoAdjacentTexts(a + b)
    ensures LinksOfKind(a + b, kind) && AllWellBuilt(a + b)
  {
    var r := a + b;
    forall k | 0 <= k < |r|
      ensures r[k] == (if k < |a| then a[k] else b[k - |a|])
    {
    }
    forall j, k | 0 <= j < |r| && 0 <= k < |r| && k == j + 1
      ensures r[j].Link? || r[k].Link?
    {
      if k < |a| {
        assert a[j] == r[j] && a[k] == r[k];
      } else if j >= |a| {
        assert b[j - |a|] == r[j] && b[k - |a|] == r[k];
      } else {
        assert r[j] == a[|a| - 1];
      }
    }
  }

  /** What pass 3 pushes for one match `m` when `lastIndex` is `from`: the
      gap before the match if it is non-empty, then the link. */
  function BareStep(kind: LinkKind, s: string, m: Span, from: nat): (r: seq<Part>)
    requires from <= m.start < m.end <= |s|
    ensures TextsNonEmpty(r)
    ensures |r| == 1 || (|r| == 2 && r[0].Text?)
    ensures r[|r| - 1] == MakeLink(kind, s[m.start..m.end])
  {
    var link := MakeLink(kind, s[m.start..m.end]);
    if from < m.start then [Text(s[from..m.start]), link] else [link]
  }

  /** The parts pushed for one match have pass 3's shape and end in a link. */
  lemma BareStepShape(kind: LinkKind, s: string, m: Span, from: nat)
    requires from <= m.start < m.end <= |s|
    ensures var step := BareStep(kind, s, m, from);
      && step != [] && step[|step| - 1].Link?
      && TextsNonEmpty(step) && NoAdjacentTexts(step)
      && LinksOfKind(step, kind) && AllWellBuilt(step)
  {
  }

  /** The parts pushed for one match read back as the text from `lastIndex`
      to the end of the match. */
  lemma BareStepVisible(kind: LinkKind, s: string, m: Span, from: nat)
    requires from <= m.start < m.end <= |s|
    ensures Visible(BareStep(kind, s, m, from)) == s[from..m.end]
  {
    var link := MakeLink(kind, s[m.start..m.end]);
    if from < m.start {
      VisiblePair(Text(s[from..m.start]), link);
      SliceJoin(s, from, m.start, m.end);
    } else {
      VisibleSingle(link);
    }
  }

  /** The `forEach` callback of pass 3 for one match `m`: push the gap
      since `lastIndex` when it is non-empty, then push the link. */
  method VisitMatch(kind: LinkKind, s: string, m: Span, lastIndex: nat, result: seq<Part>)
    returns (r: seq<Part>)
    requires lastIndex <= m.start < m.end <= |s|
    ensures r == result + BareStep(kind, s, m, lastIndex)
  {
    r := result;
    if m.start > lastIndex {
      r := r + [Text(s[lastIndex..m.start])];
    }
    r := r + [MakeLink(kind, s[m.start..m.end])];
  }

  /** Pass 3 on one string: unchanged when nothing matches, and otherwise
      made of links and non-empty gaps, never two gaps in a row. */
  function SplitBare(kind: LinkKind, s: string, spans: seq<Span>): (r: seq<Part>)
    requires WellFormed(spans, |s|)
    ensures spans == [] ==> r == [Text(s)]
    ensures spans != [] ==> TextsNonEmpty(r)
    ensures NoAdjacentTexts(r)
    ensures LinksOfKind(r, kind) && AllWellBuilt(r)
  {
    if spans == [] then [Text(s)]
    else
      SplitBareFromShape(kind, s, spans, 0, 0);
      SplitBareFrom(kind, s, spans, 0, 0)
  }

  /** The value of `lastIndex` once the first `i` matches are consumed. */
  function EndOf(spans: seq<Span>, i: nat): nat
    requires i <= |spans|
  {
    if i == 0 then 0 else spans[i - 1].end
  }

  /** What pass 3 has pushed once the first `i` matches are consumed. */
  function BarePrefix(kind: LinkKind, s: string, spans: seq<Span>, i: nat): seq<Part>
    requires WellFormed(spans, |s|) && i <= |spans|
  {
    if i == 0 then []
    else BarePrefix(kind, s, spans, i - 1) + BareStep(kind, s, spans[i - 1], EndOf(spans, i - 1))
  }

  /** What has been pushed, followed by what the remaining matches push,
      is the whole of pass 3. */
  lemma {:induction false} BarePrefixThenRest(kind: LinkKind, s: string, spans: seq<Span>, i: nat)
    requires WellFormed(spans, |s|) && i <= |spans|
    ensures Resumable(s, spans, i, EndOf(spans, i))
    ensures BarePrefix(kind, s, spans, i) + SplitBareFrom(kind, s, spans, i, EndOf(spans, i))
            == SplitBareFrom(kind, s, spans, 0, 0)
    decreases i
  {
    if i > 0 {
      BarePrefixThenRest(kind, s, spans, i - 1);
      var from := EndOf(spans, i - 1);
      var pre := BarePrefix(kind, s, spans, i - 1);
      var step := BareStep(kind, s, spans[i - 1], from);
      var rest := SplitBareFrom(kind, s, spans, i, spans[i - 1].end);
      assert BarePrefix(kind, s, spans, i) == pre + step;
      assert SplitBareFrom(kind, s, spans, i - 1, from) == step + rest;
      AppendAssoc(pre, step, rest);
    }
  }

  /** The `forEach` loop of pass 3: `lastIndex` starts at 0 and becomes each
      match's end in turn; `marks` records its successive values. */
  method WalkMatches(kind: LinkKind, s: string, spans: seq<Span>)
    returns (result: seq<Part>, lastIndex: nat, marks: seq<nat>)
    requires WellFormed(spans, |s|)
    ensures result == BarePrefix(kind, s, spans, |spans|)
    ensures lastIndex == EndOf(spans, |spans|) && lastIndex <= |s|
    ensures |marks| == |spans| && forall k :: 0 <= k < |spans| ==> marks[k] == spans[k].end
  {
    result := [];
    lastIndex := 0;
    marks := [];
    var i := 0;
    while i < |spans|
      invariant 0 <= i <= |spans|
      invariant lastIndex == EndOf(spans, i) && lastIndex <= |s|
      invariant |marks| == i
      invariant forall k :: 0 <= k < i ==> marks[k] == spans[k].end
      invariant result == BarePrefix(kind, s, spans, i)
    {
      var m := spans[i];
      WalkStep(kind, s, spans, i);
      result := VisitMatch(kind, s, m, lastIndex, result);
      lastIndex := m.end;
      marks := marks + [lastIndex];
      i := i + 1;
    }
  }

  /** Consuming match `i` pushes its step, from the end of the previous
      match, and moves `lastIndex` to its end. */
  lemma WalkStep(kind: LinkKind, s: string, spans: seq<Span>, i: nat)
    requires WellFormed(spans, |s|) && i < |spans|
    ensures EndOf(spans, i) <= spans[i].start && EndOf(spans, i + 1) == spans[i].end
    ensures BarePrefix(kind, s, spans, i + 1)
            == BarePrefix(kind, s, spans, i) + BareStep(kind, s, spans[i], EndOf(spans, i))
  {
  }

  /** Pass 3 as the source runs it: the `forEach` loop, then the tail when
      it is non-empty, and the string itself when nothing matched. It builds
      exactly the parts of `SplitBare`, and the successive values of
      `lastIndex` (returned in `marks`) are the match ends, strictly
      increasing. */
  method SplitBareLoop(kind: LinkKind, s: string, spans: seq<Span>)
    returns (r: seq<Part>, marks: seq<nat>)
    requires WellFormed(spans, |s|)
    ensures r == SplitBare(kind, s, spans)
    ensures |marks| == |spans|
    ensures forall k :: 0 <= k < |spans| ==> marks[k] == spans[k].end
    ensures forall a, b :: 0 <= a < b < |marks| ==> marks[a] < marks[b]
  {
    if |spans| == 0 {
      return [Text(s)], [];
    }
    var result, lastIndex;
    result, lastIndex, marks := WalkMatches(kind, s, spans);
    BarePrefixThenRest(kind, s, spans, |spans|);
    var tail := SplitBareFrom(kind, s, spans, |spans|, lastIndex);
    assert result + tail == SplitBare(kind, s, spans);
    if lastIndex < |s| {
      assert tail == [Text(s[lastIndex..])];
    } else {
      assert tail == [];
      AppendEmptyRight(result, tail);
    }
    r := result + tail;
  }

  /* ---------------------------------------------------------------------
     The passes and the whole link-ifier.
     --------------------------------------------------------------------- */

  /** One pass applied to one part: links pass through untouched, strings
      are re-split by the pass's matcher. */
  function Expand(kind: LinkKind, find: Matcher, p: Part): (r: seq<Part>)
    requires ValidMatcher(find)
    ensures p.Link? ==> r == [p]
    ensures p.Text? ==> r != [] && LinksOfKind(r, kind) && AllWellBuilt(r)
  {
    match p
    case Link(_, _, _) => [p]
    case Text(s) =>
      assert WellFormed(find(s), |s|);
      if kind == BareDomain then SplitBare(kind, s, find(s))
      else SplitKeep(kind, s, find(s), 0, 0)
  }

  /** One pass over a list of parts (`parts.flatMap(…)`). */
  function Pass(kind: LinkKind, find: Matcher, parts: seq<Part>): (r: seq<Part>)
    requires ValidMatcher(find)
    ensures AllWellBuilt(parts) ==> AllWellBuilt(r)
    decreases |parts|
  {
    if parts == [] then []
    else
      var head := Expand(kind, find, parts[0]);
      var rest := Pass(kind, find, parts[1..]);
      assert AllWellBuilt(parts) ==> AllWellBuilt(parts[1..]) by {
        assert forall i :: 0 <= i < |parts| - 1 ==> parts[1..][i] == parts[i + 1];
      }
      assert AllWellBuilt(parts) ==> AllWellBuilt(head);
      head + rest
  }

  /** The three passes in the source's order: protocol URLs first, then
      e-mail addresses, then bare domains. */
  function ThreePasses(text: string, m: Matchers): seq<Part>
    requires ValidMatchers(m)
  {
    Pass(BareDomain, m.domain, Pass(Email, m.email, Pass(ProtocolUrl, m.url, [Text(text)])))
  }

  /** `parseMessageWithLinks`. Rendering the parts shows exactly the message,
      and every link carries the href its kind prescribes. The URL links are
      the URL matches in the message, in order; the e-mail links are the
      e-mail matches in the strings the first pass left; the bare-domain
      links are the domain matches in the strings the second pass left. */
  function ParseMessageWithLinks(text: string, m: Matchers): (r: seq<Part>)
    requires ValidMatchers(m)
    ensures Visible(r) == text
    ensures AllWellBuilt(r)
    ensures WellFormed(m.url(text), |text|)
    ensures KindLinks(ProtocolUrl, r) == Matched(text, m.url(text), 0)
    ensures KindLinks(Email, r) == Found(Email, m.email, Pass(ProtocolUrl, m.url, [Text(text)]))
    ensures KindLinks(BareDomain, r)
            == Found(BareDomain, m.domain, Pass(Email, m.email, Pass(ProtocolUrl, m.url, [Text(text)])))
    ensures r == Pass(BareDomain, m.domain, Pass(Email, m.email, SplitKeep(ProtocolUrl, text, m.url(text), 0, 0)))
  {
    ParseKeepsText(text, m);
    FirstPassIsSplit(text, m.url);
    ParseFindsLinks(text, m);
    ThreePasses(text, m)
  }

  /** The first pass over the whole message is the split of the message,
      whose pieces `SplitKeepPart` places. */
  lemma FirstPassIsSplit(text: string, find: Matcher)
    requires ValidMatcher(find)
    ensures WellFormed(find(text), |text|)
    ensures Pass(ProtocolUrl, find, [Text(text)]) == SplitKeep(ProtocolUrl, text, find(text), 0, 0)
  {
    assert [Text(text)][1..] == [];
    AppendEmptyRight(Expand(ProtocolUrl, find, Text(text)), Pass(ProtocolUrl, find, []));
  }

  /** Which substrings the three passes turn into links of each kind. */
  lemma ParseFindsLinks(text: string, m: Matchers)
    requires ValidMatchers(m)
    ensures WellFormed(m.url(text), |text|)
    ensures var r := ThreePasses(text, m);
      && KindLinks(ProtocolUrl, r) == Matched(text, m.url(text), 0)
      && KindLinks(Email, r) == Found(Email, m.email, Pass(ProtocolUrl, m.url, [Text(text)]))
      && KindLinks(BareDomain, r)
         == Found(BareDomain, m.domain, Pass(Email, m.email, Pass(ProtocolUrl, m.url, [Text(text)])))
  {
    var p0 := [Text(text)];
    var p1 := Pass(ProtocolUrl, m.url, p0);
    var p2 := Pass(Email, m.email, p1);
    PassKindLinks(ProtocolUrl, m.url, p0);
    PassKeepsKindLinks(Email, ProtocolUrl, m.email, p1);
    PassKeepsKindLinks(BareDomain, ProtocolUrl, m.domain, p2);
    PassKindLinks(Email, m.email, p1);
    PassKeepsKindLinks(BareDomain, Email, m.domain, p2);
    PassKindLinks(BareDomain, m.domain, p2);
    FoundInMessage(ProtocolUrl, m.url, text);
  }

  /** What a pass finds in a message that is still one string: its matches. */
  lemma FoundInMessage(kind: LinkKind, find: Matcher, text: string)
    requires ValidMatcher(find)
    ensures WellFormed(find(text), |text|)
    ensures Found(kind, find, [Text(text)]) == Matched(text, find(text), 0)
  {
    assert [Text(text)][1..] == [];
    AppendEmptyRight(FoundIn(kind, find, Text(text)), Found(kind, find, []));
  }

  /** The three passes together keep the message text and build every href
      as prescribed. */
  lemma ParseKeepsText(text: string, m: Matchers)
    requires ValidMatchers(m)
    ensures Visible(ThreePasses(text, m)) == text
    ensures AllWellBuilt(ThreePasses(text, m))
  {
    var p0 := [Text(text)];
    var p1 := Pass(ProtocolUrl, m.url, p0);
    var p2 := Pass(Email, m.email, p1);
    VisibleSingle(Text(text));
    PassVisible(ProtocolUrl, m.url, p0);
    PassVisible(Email, m.email, p1);
    PassVisible(BareDomain, m.domain, p2);
  }

  /* ---------------------------------------------------------------------
     Reassembly: no pass loses, duplicates or reorders a character.
     --------------------------------------------------------------------- */

  lemma {:induction false} VisibleAppend(a: seq<Part>, b: seq<Part>)
    ensures Visible(a + b) == Visible(a) + Visible(b)
    decreases |a|
  {
    if a == [] {
      AppendEmpty(a, b);
      AppendEmpty(Visible(a), Visible(b));
    } else {
      TailOfAppend(a, b);
      assert (a + b)[0] == a[0];
      VisibleAppend(a[1..], b);
      AppendAssoc(Shown(a[0]), Visible(a[1..]), Visible(b));
    }
  }

  lemma VisibleSingle(p: Part)
    ensures Visible([p]) == Shown(p)
  {
    assert [p][1..] == [];
  }

  lemma VisiblePair(p: Part, q: Part)
    ensures Visible([p, q]) == Shown(p) + Shown(q)
  {
    assert [p, q][1..] == [q];
    VisibleSingle(q);
  }

  /** The split pieces of passes 1 and 2 read back as the split string. */
  lemma {:induction false} SplitKeepVisible(kind: LinkKind, s: string, spans: seq<Span>, i: nat, from: nat)
    requires Resumable(s, spans, i, from)
    ensures Visible(SplitKeep(kind, s, spans, i, from)) == s[from..]
    decreases |spans| - i
  {
    if i == |spans| {
      VisibleSingle(Text(s[from..]));
    } else {
      var m := spans[i];
      var gap, shown := s[from..m.start], s[m.start..m.end];
      var head := [Text(gap), MakeLink(kind, shown)];
      var rest := SplitKeep(kind, s, spans, i + 1, m.end);
      assert SplitKeep(kind, s, spans, i, from) == head + rest;
      SplitKeepVisible(kind, s, spans, i + 1, m.end);
      VisiblePair(Text(gap), MakeLink(kind, shown));
      VisibleAppend(head, rest);
      SliceJoin(s, from, m.start, m.end);
      SliceJoinTail(s, from, m.end);
    }
  }

  /** The parts of pass 3 read back as the string they were cut from. */
  lemma {:induction false} SplitBareFromVisible(kind: LinkKind, s: string, spans: seq<Span>, i: nat, from: nat)
    requires Resumable(s, spans, i, from)
    ensures Visible(SplitBareFrom(kind, s, spans, i, from)) == s[from..]
    decreases |spans| - i
  {
    if i == |spans| {
      if from < |s| {
        VisibleSingle(Text(s[from..]));
      }
    } else {
      var m := spans[i];
      var step := BareStep(kind, s, m, from);
      var rest := SplitBareFrom(kind, s, spans, i + 1, m.end);
      assert SplitBareFrom(kind, s, spans, i, from) == step + rest;
      SplitBareFromVisible(kind, s, spans, i + 1, m.end);
      BareStepVisible(kind, s, m, from);
      VisibleAppend(step, rest);
      SliceJoinTail(s, from, m.end);
    }
  }

  lemma ExpandVisible(kind: LinkKind, find: Matcher, p: Part)
    requires ValidMatcher(find)
    ensures Visible(Expand(kind, find, p)) == Shown(p)
  {
    match p
    case Link(_, _, _) =>
    case Text(s) =>
      assert WellFormed(find(s), |s|);
      if kind == BareDomain {
        if find(s) != [] {
          SplitBareFromVisible(kind, s, find(s), 0, 0);
        }
      } else {
        SplitKeepVisible(kind, s, find(s), 0, 0);
      }
  }

  /** A pass preserves the visible text of the whole message. */
  lemma {:induction false} PassVisible(kind: LinkKind, find: Matcher, parts: seq<Part>)
    requires ValidMatcher(find)
    ensures Visible(Pass(kind, find, parts)) == Visible(parts)
    decreases |parts|
  {
    if parts != [] {
      ExpandVisible(kind, find, parts[0]);
      PassVisible(kind, find, parts[1..]);
      VisibleAppend(Expand(kind, find, parts[0]), Pass(kind, find, parts[1..]));
    }
  }

  /* ---------------------------------------------------------------------
     Links: which substrings become links, and what later passes do to them.
     --------------------------------------------------------------------- */

  lemma {:induction false} LinkTextsAppend(a: seq<Part>, b: seq<Part>)
    ensures LinkTexts(a + b) == LinkTexts(a) + LinkTexts(b)
    decreases |a|
  {
    if a == [] {
      AppendEmpty(a, b);
      AppendEmpty(LinkTexts(a), LinkTexts(b));
    } else {
      TailOfAppend(a, b);
      assert (a + b)[0] == a[0];
      LinkTextsAppend(a[1..], b);
      AppendAssoc((if a[0].Link? then [a[0].text] else []), LinkTexts(a[1..]), LinkTexts(b));
    }
  }

  /** Passes 1 and 2 turn exactly the matched substrings into links, in order. */
  lemma {:induction false} SplitKeepLinks(kind: LinkKind, s: string, spans: seq<Span>, i: nat, from: nat)
    requires Resumable(s, spans, i, from)
    ensures LinkTexts(SplitKeep(kind, s, spans, i, from)) == Matched(s, spans, i)
    decreases |spans| - i
  {
    if i == |spans| {
      assert LinkTexts([Text(s[from..])]) == [];
    } else {
      var m := spans[i];
      var link := MakeLink(kind, s[m.start..m.end]);
      var head := [Text(s[from..m.start]), link];
      SplitKeepLinks(kind, s, spans, i + 1, m.end);
      LinkTextsAppend(head, SplitKeep(kind, s, spans, i + 1, m.end));
      assert head[1..] == [link];
      assert LinkTexts([link]) == [s[m.start..m.end]];
    }
  }

  /** Pass 3 turns exactly the matched substrings into links, in order. */
  lemma {:induction false} SplitBareLinks(kind: LinkKind, s: string, spans: seq<Span>, i: nat, from: nat)
    requires Resumable(s, spans, i, from)
    ensures LinkTexts(SplitBareFrom(kind, s, spans, i, from)) == Matched(s, spans, i)
    decreases |spans| - i
  {
    if i == |spans| {
      if from < |s| {
        assert LinkTexts([Text(s[from..])]) == [];
      }
    } else {
      var m := spans[i];
      var step := BareStep(kind, s, m, from);
      var rest := SplitBareFrom(kind, s, spans, i + 1, m.end);
      assert SplitBareFrom(kind, s, spans, i, from) == step + rest;
      SplitBareLinks(kind, s, spans, i + 1, m.end);
      BareStepLinks(kind, s, m, from);
      LinkTextsAppend(step, rest);
    }
  }

  /** The parts pushed for one match hold exactly one link, its text. */
  lemma BareStepLinks(kind: LinkKind, s: string, m: Span, from: nat)
    requires from <= m.start < m.end <= |s|
    ensures LinkTexts(BareStep(kind, s, m, from)) == [s[m.start..m.end]]
  {
    var step := BareStep(kind, s, m, from);
    var link := MakeLink(kind, s[m.start..m.end]);
    assert LinkTexts([link]) == [s[m.start..m.end]] by {
      assert [link][1..] == [];
    }
    if |step| == 2 {
      assert step[1..] == [link];
    }
  }

  lemma {:induction false} PassAppend(kind: LinkKind, find: Matcher, a: seq<Part>, b: seq<Part>)
    requires ValidMatcher(find)
    ensures Pass(kind, find, a + b) == Pass(kind, find, a) + Pass(kind, find, b)
    decreases |a|
  {
    if a == [] {
      AppendEmpty(a, b);
      AppendEmpty(Pass(kind, find, a), Pass(kind, find, b));
    } else {
      TailOfAppend(a, b);
      assert (a + b)[0] == a[0];
      PassAppend(kind, find, a[1..], b);
      AppendAssoc(Expand(kind, find, a[0]), Pass(kind, find, a[1..]), Pass(kind, find, b));
    }
  }

  /** A pass maps a lone link to itself. */
  lemma PassLink(kind: LinkKind, find: Matcher, link: Part)
    requires ValidMatcher(find) && link.Link?
    ensures Pass(kind, find, [link]) == [link]
  {
    assert [link][1..] == [];
    assert Expand(kind, find, link) == [link];
  }

  /** A part that is already a link comes out of every later pass exactly as
      it went in, at the same place between what its neighbours become. */
  lemma LinkPassesThrough(kind: LinkKind, find: Matcher, before: seq<Part>, link: Part, after: seq<Part>)
    requires ValidMatcher(find) && link.Link?
    ensures Pass(kind, find, before + [link] + after)
            == Pass(kind, find, before) + [link] + Pass(kind, find, after)
  {
    PassAppend(kind, find, before + [link], after);
    PassAppend(kind, find, before, [link]);
    PassLink(kind, find, link);
  }

  lemma {:induction false} OtherLinksAppend(kind: LinkKind, a: seq<Part>, b: seq<Part>)
    ensures OtherLinks(kind, a + b) == OtherLinks(kind, a) + OtherLinks(kind, b)
    decreases |a|
  {
    if a == [] {
      AppendEmpty(a, b);
      AppendEmpty(OtherLinks(kind, a), OtherLinks(kind, b));
    } else {
      TailOfAppend(a, b);
      assert (a + b)[0] == a[0];
      OtherLinksAppend(kind, a[1..], b);
      AppendAssoc((if a[0].Link? && a[0].kind != kind then [a[0]] else []), OtherLinks(kind, a[1..]), OtherLinks(kind, b));
    }
  }

  /** Parts made only of strings and links of `kind` hold no other link. */
  lemma {:induction false} NoOtherLinks(kind: LinkKind, parts: seq<Part>)
    requires LinksOfKind(parts, kind)
    ensures OtherLinks(kind, parts) == []
    decreases |parts|
  {
    if parts != [] {
      assert parts[0].Link? ==> parts[0].kind == kind;
      assert LinksOfKind(parts[1..], kind) by {
        assert forall k :: 0 <= k < |parts| - 1 ==> parts[1..][k] == parts[k + 1];
      }
      NoOtherLinks(kind, parts[1..]);
    }
  }

  /** A pass neither drops, alters nor reorders the links earlier passes
      made: apart from its own new links, the links are those of its input. */
  lemma {:induction false} PassKeepsOtherLinks(kind: LinkKind, find: Matcher, parts: seq<Part>)
    requires ValidMatcher(find)
    ensures OtherLinks(kind, Pass(kind, find, parts)) == OtherLinks(kind, parts)
    decreases |parts|
  {
    if parts != [] {
      var p := parts[0];
      var head := Expand(kind, find, p);
      PassKeepsOtherLinks(kind, find, parts[1..]);
      OtherLinksAppend(kind, head, Pass(kind, find, parts[1..]));
      match p
      case Link(_, _, _) =>
        assert head == [p];
        assert [p][1..] == [];
      case Text(str) =>
        assert WellFormed(find(str), |str|);
        NoOtherLinks(kind, head);
    }
  }
  /* ---------------------------------------------------------------------
     Which substrings become links of each kind.
     --------------------------------------------------------------------- */

  /** The visible texts of the links of kind `kind`, in order. */
  function KindLinks(kind: LinkKind, parts: seq<Part>): seq<string> {
    if parts == [] then []
    else (if parts[0].Link? && parts[0].kind == kind then [parts[0].text] else []) + KindLinks(kind, parts[1..])
  }

  /** What a pass of `kind` makes or keeps as links of its kind in one part:
      the matches of a string, or the part itself if it is already such a
      link. */
  function FoundIn(kind: LinkKind, find: Matcher, p: Part): seq<string>
    requires ValidMatcher(find)
  {
    match p
    case Text(s) =>
      assert WellFormed(find(s), |s|);
      Matched(s, find(s), 0)
    case Link(k, _, t) => if k == kind then [t] else []
  }

  /** `FoundIn` over all the parts, in order. */
  function Found(kind: LinkKind, find: Matcher, parts: seq<Part>): seq<string>
    requires ValidMatcher(find)
  {
    if parts == [] then [] else FoundIn(kind, find, parts[0]) + Found(kind, find, parts[1..])
  }

  lemma {:induction false} KindLinksAppend(kind: LinkKind, a: seq<Part>, b: seq<Part>)
    ensures KindLinks(kind, a + b) == KindLinks(kind, a) + KindLinks(kind, b)
    decreases |a|
  {
    if a == [] {
      AppendEmpty(a, b);
      AppendEmpty(KindLinks(kind, a), KindLinks(kind, b));
    } else {
      TailOfAppend(a, b);
      assert (a + b)[0] == a[0];
      KindLinksAppend(kind, a[1..], b);
      AppendAssoc((if a[0].Link? && a[0].kind == kind then [a[0].text] else []),
                  KindLinks(kind, a[1..]), KindLinks(kind, b));
    }
  }

  /** When every link is of `kind`, its links of that kind are all its links. */
  lemma {:induction false} KindLinksAreLinkTexts(kind: LinkKind, parts: seq<Part>)
    requires LinksOfKind(parts, kind)
    ensures KindLinks(kind, parts) == LinkTexts(parts)
    decreases |parts|
  {
    if parts != [] {
      assert parts[0].Link? ==> parts[0].kind == kind;
      assert LinksOfKind(parts[1..], kind) by {
        assert forall k :: 0 <= k < |parts| - 1 ==> parts[1..][k] == parts[k + 1];
      }
      KindLinksAreLinkTexts(kind, parts[1..]);
    }
  }

  /** One part after a pass holds, as links of the pass's kind, exactly
      what `FoundIn` says. */
  lemma ExpandKindLinks(kind: LinkKind, find: Matcher, p: Part)
    requires ValidMatcher(find)
    ensures KindLinks(kind, Expand(kind, find, p)) == FoundIn(kind, find, p)
  {
    var r := Expand(kind, find, p);
    match p
    case Link(_, _, _) =>
      assert [p][1..] == [];
    case Text(s) =>
      assert WellFormed(find(s), |s|);
      KindLinksAreLinkTexts(kind, r);
      if kind == BareDomain {
        if find(s) == [] {
          assert [Text(s)][1..] == [];
        } else {
          SplitBareLinks(kind, s, find(s), 0, 0);
        }
      } else {
        SplitKeepLinks(kind, s, find(s), 0, 0);
      }
  }

  /** The links a pass of `kind` leaves of its own kind are, in order, the
      matches it finds in each string part, with any link of that kind
      already present kept in its place. */
  lemma {:induction false} PassKindLinks(kind: LinkKind, find: Matcher, parts: seq<Part>)
    requires ValidMatcher(find)
    ensures KindLinks(kind, Pass(kind, find, parts)) == Found(kind, find, parts)
    decreases |parts|
  {
    if parts != [] {
      var head := Expand(kind, find, parts[0]);
      var rest := Pass(kind, find, parts[1..]);
      assert Pass(kind, find, parts) == head + rest;
      KindLinksAppend(kind, head, rest);
      ExpandKindLinks(kind, find, parts[0]);
      PassKindLinks(kind, find, parts[1..]);
    }
  }

  /** The links of another kind are read off the links a pass leaves alone. */
  lemma {:induction false} KindLinksOfOthers(kind: LinkKind, other: LinkKind, parts: seq<Part>)
    requires other != kind
    ensures KindLinks(other, OtherLinks(kind, parts)) == KindLinks(other, parts)
    decreases |parts|
  {
    if parts != [] {
      var p := parts[0];
      var head := if p.Link? && p.kind != kind then [p] else [];
      KindLinksAppend(other, head, OtherLinks(kind, parts[1..]));
      KindLinksOfOthers(kind, other, parts[1..]);
      if head == [p] {
        assert [p][1..] == [];
      }
    }
  }

  /** A pass of `kind` leaves the links of every other kind as they were. */
  lemma PassKeepsKindLinks(kind: LinkKind, other: LinkKind, find: Matcher, parts: seq<Part>)
    requires ValidMatcher(find) && other != kind
    ensures KindLinks(other, Pass(kind, find, parts)) == KindLinks(other, parts)
  {
    KindLinksOfOthers(kind, other, Pass(kind, find, parts));
    KindLinksOfOthers(kind, other, parts);
    PassKeepsOtherLinks(kind, find, parts);
  }
}

=== FILE: options.dfy ===
/** Optional values and the outcome of an asynchronous call that either
    resolves or throws an `Error` carrying a message. */
module Options {

  /** A value that may be absent (`undefined` in the components). */
  datatype Option<T> = None | Some(value: T)

  /** How an awaited call into code outside the model ended: it resolved,
      or it threw an error whose `message` the components display. */
  datatype Outcome = Succeeded | Failed(message: string)
}

=== FILE: sequences.dfy ===
/** Small facts about sequences, proved once in an otherwise empty context so
    that the proofs using them need not re-derive them element by element. */
module Sequences {

  lemma AppendAssoc<T>(a: seq<T>, b: seq<T>, c: seq<T>)
    ensures (a + b) + c == a + (b + c)
  {
  }

  lemma AppendEmpty<T>(a: seq<T>, b: seq<T>)
    requires a == []
    ensures a + b == b
  {
  }

  lemma AppendEmptyRight<T>(a: seq<T>, b: seq<T>)
    requires b == []
    ensures a + b == a
  {
  }

  lemma TailOfAppend<T>(a: seq<T>, b: seq<T>)
    requires a != []
    ensures (a + b)[1..] == a[1..] + b
  {
  }

  /** Two adjacent slices join into one. */
  lemma SliceJoin<T>(s: seq<T>, a: nat, b: nat, c: nat)
    requires a <= b <= c <= |s|
    ensures s[a..b] + s[b..c] == s[a..c]
  {
  }

  /** A slice followed by the rest of the sequence is the suffix it starts. */
  lemma SliceJoinTail<T>(s: seq<T>, a: nat, b: nat)
    requires a <= b <= |s|
    ensures s[a..b] + s[b..] == s[a..]
  {
  }

  /** An index inside the first sequence lands in it. */
  lemma IndexBefore<T>(a: seq<T>, b: seq<T>, j: nat)
    requires j < |a|
    ensures (a + b)[j] == a[j]
  {
  }

  /** An index past the first sequence lands in the second. */
  lemma IndexAfter<T>(a: seq<T>, b: seq<T>, j: nat)
    requires |a| <= j < |a| + |b|
    ensures (a + b)[j] == b[j - |a|]
  {
  }
}

=== FILE: spans.dfy ===
/** The contract the link-ifier relies on from its regular expressions.
    A global regex search is modelled as a matcher: a function from the
    searched string to the spans of its matches. */
module Spans {

  /** One match: the half-open index range [start, end) of the searched string. */
  datatype Span = Span(start: nat, end: nat)

  /** What a global search over a string of length `n` can return: every
      match is non-empty and lies inside the string, and the matches come in
      increasing order without overlapping. */
  predicate WellFormed(spans: seq<Span>, n: nat) {
    && (forall i :: 0 <= i < |spans| ==> spans[i].start < spans[i].end <= n)
    && (forall i, j :: 0 <= i < j < |spans| ==> spans[i].end <= spans[j].start)
  }

  /** A search over `s` can resume at match `i` with everything before
      index `from` already consumed: the matches are well formed, and the
      `i`-th one, if any, starts at or after `from`. */
  predicate Resumable(s: string, spans: seq<Span>, i: nat, from: nat) {
    && WellFormed(spans, |s|)
    && i <= |spans|
    && from <= |s|
    && (i < |spans| ==> from <= spans[i].start)
  }

  /** A regex, seen only through the matches it finds in a string. */
  type Matcher = string -> seq<Span>

  /** The matcher behaves like a global regex search on every string. */
  ghost predicate ValidMatcher(find: Matcher) {
    forall s :: WellFormed(find(s), |s|)
  }

  /** The matched substrings of `s` from the `i`-th match on, in order. */
  function Matched(s: string, spans: seq<Span>, i: nat): (r: seq<string>)
    requires WellFormed(spans, |s|) && i <= |spans|
    ensures |r| == |spans| - i
    ensures forall k :: 0 <= k < |r| ==> r[k] == s[spans[i + k].start..spans[i + k].end]
    decreases |spans| - i
  {
    if i == |spans| then []
    else [s[spans[i].start..spans[i].end]] + Matched(s, spans, i + 1)
  }
}

=== FILE: strings.dfy ===
/** String helpers shared by the chat components: JavaScript's
    `String.prototype.trim` and in-order concatenation of string pieces. */
module Strings {

  /** The characters `trim` removes: the WhiteSpace and LineTerminator
      code points of ECMAScript (section 12.2 and 12.3 of ECMA-262), that is
      TAB, VT, FF, SP, NBSP, ZWNBSP, the space separators of Unicode category
      Zs, LF, CR, LS and PS. */
  predicate IsWhitespace(c: char) {
    || c == '\t' || c == '\n' || c == '\U{B}' || c == '\U{C}' || c == '\r'
    || c == ' ' || c == '\U{A0}' || c == '\U{1680}'
    || ('\U{2000}' <= c <= '\U{200A}')
    || c == '\U{2028}' || c == '\U{2029}' || c == '\U{202F}' || c == '\U{205F}'
    || c == '\U{3000}' || c == '\U{FEFF}'
  }

  /** Every character of `s` is whitespace (the empty string included). */
  predicate IsBlank(s: string) {
    forall i :: 0 <= i < |s| ==> IsWhitespace(s[i])
  }

  /** The index of the first character at or after `from` that `trim` keeps
      (`|s|` when the rest of `s` is all whitespace). */
  function SkipLeading(s: string, from: nat): (k: nat)
    requires from <= |s|
    ensures from <= k <= |s|
    ensures forall i :: from <= i < k ==> IsWhitespace(s[i])
    ensures k < |s| ==> !IsWhitespace(s[k])
    decreases |s| - from
  {
    if from < |s| && IsWhitespace(s[from]) then SkipLeading(s, from + 1) else from
  }

  /** The index just past the last character before `upto` that `trim`
      keeps (`0` when everything before `upto` is whitespace). */
  function SkipTrailing(s: string, upto: nat): (k: nat)
    requires upto <= |s|
    ensures k <= upto
    ensures forall i :: k <= i < upto ==> IsWhitespace(s[i])
    ensures k > 0 ==> !IsWhitespace(s[k - 1])
    decreases upto
  {
    if upto > 0 && IsWhitespace(s[upto - 1]) then SkipTrailing(s, upto - 1) else upto
  }

  /** `trim`: `s` without its leading and trailing whitespace. The result is
      the slice of `s` between a blank head and a blank tail; it is empty
      exactly when `s` is blank, and otherwise starts and ends with a
      character that is not whitespace. */
  function Trim(s: string): (r: string)
    ensures r == [] <==> IsBlank(s)
    ensures r != [] ==> !IsWhitespace(r[0]) && !IsWhitespace(r[|r| - 1])
    ensures exists i :: KeptSlice(s, r, i)
  {
    var lo := SkipLeading(s, 0);
    var hi := SkipTrailing(s, |s|);
    if lo == |s| then
      assert KeptSlice(s, [], 0);
      []
    else
      assert lo < hi;
      assert KeptSlice(s, s[lo..hi], lo);
      s[lo..hi]
  }

  /** `r` is the slice of `s` starting at `i`, and everything of `s` outside
      that slice is whitespace. */
  predicate KeptSlice(s: string, r: string, i: nat) {
    && i + |r| <= |s|
    && r == s[i..i + |r|]
    && (forall j :: 0 <= j < i ==> IsWhitespace(s[j]))
    && (forall j :: i + |r| <= j < |s| ==> IsWhitespace(s[j]))
  }

  /** Trimming is idempotent: a trimmed string has nothing left to remove. */
  lemma TrimIdempotent(s: string)
    ensures Trim(Trim(s)) == Trim(s)
  {
    var r := Trim(s);
    if r != [] {
      assert SkipLeading(r, 0) == 0;
      assert SkipTrailing(r, |r|) == |r|;
      assert r[0..|r|] == r;
    }
  }

  /** The in-order concatenation of `pieces`, built from the back so that a
      loop appending one piece at a time matches it step by step. */
  function Concat(pieces: seq<string>): string {
    if pieces == [] then [] else Concat(pieces[..|pieces| - 1]) + pieces[|pieces| - 1]
  }

  /** The concatenation of a longer run of pieces extends that of a shorter one:
      every prefix of the piece list yields a prefix of the full text. */
  lemma {:induction false} ConcatPrefix(pieces: seq<string>, k: nat)
    requires k <= |pieces|
    ensures Concat(pieces[..k]) <= Concat(pieces)
    decreases |pieces|
  {
    if k < |pieces| {
      var init := pieces[..|pieces| - 1];
      assert pieces[..k] == init[..k];
      ConcatPrefix(init, k);
    } else {
      assert pieces[..k] == pieces;
    }
  }

  /** Of two prefixes of the piece list, the shorter one's concatenation is
      a prefix of the longer one's. */
  lemma ConcatMonotone(pieces: seq<string>, j: nat, k: nat)
    requires j <= k <= |pieces|
    ensures Concat(pieces[..j]) <= Concat(pieces[..k])
  {
    var longer := pieces[..k];
    assert longer[..j] == pieces[..j];
    ConcatPrefix(longer, j);
  }

  /** One more piece adds exactly that piece at the end. */
  lemma ConcatSnoc(pieces: seq<string>, i: nat)
    requires i < |pieces|
    ensures Concat(pieces[..i + 1]) == Concat(pieces[..i]) + pieces[i]
  {
    assert pieces[..i + 1][..i] == pieces[..i];
  }
}

=== FILE: widget.dfy ===
/** The City of Midland widget page: its chat log and the rules that decide
    which entries reach it. Each handler is a pure transition from the
    page state before the event to the state after it; what the voice
    SDK and the network answered is passed in as an argument. */
module Widget {
  import opened Options
  import opened Strings

  /** The `type` of a log entry; it picks the label and the bubble style. */
  datatype EntryType = User | Agent | System | Error

  /** One chat log entry (`{type, content}`; the timestamp is not modelled). */
  datatype Entry = Entry(kind: EntryType, content: string)

  datatype WidgetState = WidgetState(messages: seq<Entry>, isConnected: bool, textInput: string)

  /** A message event from the SDK: `message.message`, `message.source`
      and `message.role`, each possibly absent. */
  datatype Incoming = Incoming(message: Option<string>, source: Option<string>, role: Option<string>)

  /** The close code of an abnormal disconnect. */
  const ABNORMAL_CLOSURE: int := 1006

  const CONNECTION_FAILED: string :=
    "Connection failed. Please check your internet connection and try again."
  const CONNECTING: string := "Connecting to Jacky..."
  const CONVERSATION_ENDED: string := "Conversation ended"
  const REQUESTING_MICROPHONE: string := "Requesting microphone access..."
  const MICROPHONE_DENIED: string :=
    "Microphone permission denied." + " Please allow microphone access to use voice chat."
  const SIGNED_URL_FAILED: string := "Failed to get signed URL from server"
  const MICROPHONE_MUTED: string := "Microphone muted"
  const MICROPHONE_UNMUTED: string := "Microphone unmuted"

  /** `addMessage`: the log grows by exactly the new entry at its end. */
  function AddMessage(log: seq<Entry>, kind: EntryType, content: string): (r: seq<Entry>)
    ensures |r| == |log| + 1
    ensures r[..|log|] == log
    ensures r[|log|] == Entry(kind, content)
  {
    log + [Entry(kind, content)]
  }

  /** A JavaScript string field is truthy when present and non-empty. */
  predicate Truthy(v: Option<string>) {
    v.Some? && v.value != []
  }

  /** Who an incoming message is attributed to: the user when either its
      `source` or its `role` says "user", the agent otherwise. */
  function Classify(m: Incoming): EntryType {
    if m.source == Some("user") || m.role == Some("user") then User else Agent
  }

  /** `onMessage`: only a message with a truthy text is logged, under the
      sender `Classify` picks, with the text as it arrived. */
  function OnMessage(st: WidgetState, m: Incoming): (r: WidgetState)
    ensures !Truthy(m.message) ==> r == st
    ensures Truthy(m.message) ==>
      && r.messages == st.messages + [Entry(Classify(m), m.message.value)]
      && r.isConnected == st.isConnected && r.textInput == st.textInput
    ensures Truthy(m.message) ==>
      (r.messages[|st.messages|].kind == User <==> m.source == Some("user") || m.role == Some("user"))
  {
    if Truthy(m.message) then
      st.(messages := AddMessage(st.messages, Classify(m), m.message.value))
    else st
  }

  /** `onDisconnect`: the page is disconnected afterwards, and an error
      entry is logged only for an abnormal closure (code 1006). */
  function OnDisconnect(st: WidgetState, code: Option<int>): (r: WidgetState)
    ensures !r.isConnected && r.textInput == st.textInput
    ensures code == Some(ABNORMAL_CLOSURE) ==>
      r.messages == st.messages + [Entry(Error, CONNECTION_FAILED)]
    ensures code != Some(ABNORMAL_CLOSURE) ==> r.messages == st.messages
  {
    var st' := st.(isConnected := false);
    if code == Some(ABNORMAL_CLOSURE) then
      st'.(messages := AddMessage(st.messages, Error, CONNECTION_FAILED))
    else st'
  }

  /** `onConnect`: the page is connected, and nothing is logged. */
  function OnConnect(st: WidgetState): (r: WidgetState)
    ensures r.isConnected
    ensures r.messages == st.messages && r.textInput == st.textInput
  {
    st.(isConnected := true)
  }

  /** `onError`: the SDK error is logged with an "Error: " prefix. */
  function OnError(st: WidgetState, message: string): (r: WidgetState)
    ensures r.messages == st.messages + [Entry(Error, "Error: " + message)]
    ensures r.isConnected == st.isConnected && r.textInput == st.textInput
  {
    st.(messages := AddMessage(st.messages, Error, "Error: " + message))
  }

  /** `handleDisconnect`: ending the session logs a system entry; the flag
      only drops when the SDK reports the disconnect (`OnDisconnect`). */
  function EndConversation(st: WidgetState): (r: WidgetState)
    ensures r.messages == st.messages + [Entry(System, CONVERSATION_ENDED)]
    ensures r.isConnected == st.isConnected && r.textInput == st.textInput
  {
    st.(messages := AddMessage(st.messages, System, CONVERSATION_ENDED))
  }

  /** The input box's `onChange`: the box holds what was typed. */
  function TypeText(st: WidgetState, text: string): (r: WidgetState)
    ensures r.textInput == text
    ensures r.messages == st.messages && r.isConnected == st.isConnected
  {
    st.(textInput := text)
  }

  /** An error thrown by the browser or the SDK: its `name` and `message`. */
  datatype Thrown = Thrown(name: string, message: string)

  /** How the awaited steps of `handleConnect` went: the first step that
      threw, or `Started` when the session was started. */
  datatype VoiceStart =
    | AudioFailed(e: Thrown)        // resuming the audio context
    | MicrophoneFailed(e: Thrown)   // `getUserMedia`
    | SignedUrlRefused              // the signed-URL response was not ok
    | SessionFailed(e: Thrown)      // fetching the URL or `startSession`
    | Started

  /** The error `handleConnect` caught, if any. */
  function Failure(v: VoiceStart): Option<Thrown> {
    match v
    case AudioFailed(e) => Some(e)
    case MicrophoneFailed(e) => Some(e)
    case SignedUrlRefused => Some(Thrown("Error", SIGNED_URL_FAILED))
    case SessionFailed(e) => Some(e)
    case Started => None
  }

  /** A refused microphone permission, by the error's name. */
  predicate PermissionError(e: Thrown) {
    e.name == "NotAllowedError" || e.name == "PermissionDeniedError"
  }

  /** The entry text for an error caught by `handleConnect`. */
  function ConnectError(e: Thrown): string {
    if PermissionError(e) then MICROPHONE_DENIED else "Failed to connect: " + e.message
  }

  /** `handleConnect`: nothing happens on a connected page. Otherwise the
      microphone request and the connection attempt are announced as they
      are reached, and the first step that throws ends the attempt with one
      error entry. The flag itself is set later, by `onConnect`. */
  function HandleConnect(st: WidgetState, v: VoiceStart): (r: WidgetState)
    ensures st.isConnected ==> r == st
    ensures r.isConnected == st.isConnected && r.textInput == st.textInput
    ensures !st.isConnected && v.AudioFailed? ==>
      r.messages == st.messages + [Entry(Error, ConnectError(v.e))]
    ensures !st.isConnected && v.MicrophoneFailed? ==>
      r.messages == st.messages + [Entry(System, REQUESTING_MICROPHONE), Entry(Error, ConnectError(v.e))]
    ensures !st.isConnected && (v.SignedUrlRefused? || v.SessionFailed?) ==>
      r.messages == st.messages + [Entry(System, REQUESTING_MICROPHONE), Entry(System, CONNECTING),
                                   Entry(Error, ConnectError(Failure(v).value))]
    ensures !st.isConnected && v.Started? ==>
      r.messages == st.messages + [Entry(System, REQUESTING_MICROPHONE), Entry(System, CONNECTING)]
  {
    if st.isConnected then st
    else
      var announced :=
        match v
        case AudioFailed(_) => st.messages
        case MicrophoneFailed(_) => AddMessage(st.messages, System, REQUESTING_MICROPHONE)
        case _ => AddMessage(AddMessage(st.messages, System, REQUESTING_MICROPHONE), System, CONNECTING);
      match Failure(v)
      case None => st.(messages := announced)
      case Some(e) => st.(messages := AddMessage(announced, Error, ConnectError(e)))
  }

  /** A failed attempt to connect ends the log with the permission message
      exactly when the browser refused the microphone, and with
      "Failed to connect: " and the error's message otherwise. */
  lemma ConnectFailureExplained(st: WidgetState, v: VoiceStart)
    requires !st.isConnected && Failure(v).Some?
    ensures var log := HandleConnect(st, v).messages;
      && |log| > |st.messages|
      && log[|log| - 1].kind == Error
      && (log[|log| - 1].content == MICROPHONE_DENIED <==> PermissionError(Failure(v).value))
  {
    var e := Failure(v).value;
    if !PermissionError(e) {
      assert ConnectError(e)[0] == 'F';
      assert MICROPHONE_DENIED[0] == 'M';
    }
  }

  /** `handleToggleMute`: the new microphone state is announced. Whether the
      SDK was muted before is an argument. */
  function ToggleMute(st: WidgetState, wasMuted: bool): (r: WidgetState)
    ensures r.messages == st.messages + [Entry(System, if wasMuted then MICROPHONE_UNMUTED else MICROPHONE_MUTED)]
    ensures r.isConnected == st.isConnected && r.textInput == st.textInput
  {
    st.(messages := AddMessage(st.messages, System, if wasMuted then MICROPHONE_UNMUTED else MICROPHONE_MUTED))
  }

  /** The result of `handleSendText`: the new state and the text handed to
      `sendUserMessage`, if any. */
  datatype SendResult = SendResult(state: WidgetState, sent: Option<string>)

  /** `handleSendText`. Whitespace-only input is ignored. Otherwise the
      trimmed text is what is logged and sent, and the input box is
      cleared. When not yet connected, the session is started first
      (`connect` says how that went) and a failure is logged instead of the
      message; `send` says whether `sendUserMessage` threw. */
  function SendText(st: WidgetState, connect: Outcome, send: Outcome): (r: SendResult)
    ensures IsBlank(st.textInput) ==> r == SendResult(st, None)
    ensures !IsBlank(st.textInput) ==> r.state.textInput == ""
    ensures r.state.isConnected == st.isConnected
    ensures |st.messages| <= |r.state.messages| && r.state.messages[..|st.messages|] == st.messages
    ensures r.sent.Some? ==>
      && r.sent.value == Trim(st.textInput) && r.sent.value != []
      && Entry(User, r.sent.value) in r.state.messages[|st.messages|..]
    ensures !IsBlank(st.textInput) && st.isConnected ==>
      && r.sent == Some(Trim(st.textInput))
      && r.state.messages == st.messages + [Entry(User, Trim(st.textInput))]
           + (if send.Failed? then [Entry(Error, "Failed to send message: " + send.message)] else [])
    ensures !IsBlank(st.textInput) && !st.isConnected && connect.Succeeded? ==>
      && r.sent == Some(Trim(st.textInput))
      && r.state.messages == st.messages + [Entry(System, CONNECTING), Entry(User, Trim(st.textInput))]
           + (if send.Failed? then [Entry(Error, "Failed to connect: " + send.message)] else [])
    ensures !IsBlank(st.textInput) && !st.isConnected && connect.Failed? ==>
      && r.sent == None
      && r.state.messages == st.messages + [Entry(System, CONNECTING), Entry(Error, "Failed to connect: " + connect.message)]
  {
    if Trim(st.textInput) == [] then SendResult(st, None)
    else
      var text := Trim(st.textInput);
      var cleared := st.(textInput := "");
      if !st.isConnected then
        var log := AddMessage(cleared.messages, System, CONNECTING);
        match connect
        case Failed(e) =>
          SendResult(cleared.(messages := AddMessage(log, Error, "Failed to connect: " + e)), None)
        case Succeeded =>
          var log' := AddMessage(log, User, text);
          match send
          case Succeeded => SendResult(cleared.(messages := log'), Some(text))
          case Failed(e) =>
            SendResult(cleared.(messages := AddMessage(log', Error, "Failed to connect: " + e)), Some(text))
      else
        var log := AddMessage(cleared.messages, User, text);
        match send
        case Succeeded => SendResult(cleared.(messages := log), Some(text))
        case Failed(e) =>
          SendResult(cleared.(messages := AddMessage(log, Error, "Failed to send message: " + e)), Some(text))
  }

  /** What is logged and sent has no surrounding whitespace left, and
      still has a character that is not whitespace. */
  lemma SentTextIsTrimmed(st: WidgetState, connect: Outcome, send: Outcome)
    ensures var r := SendText(st, connect, send);
      r.sent.Some? ==> Trim(r.sent.value) == r.sent.value && !IsBlank(r.sent.value)
  {
    TrimIdempotent(st.textInput);
  }

  /** Everything that can happen to the widget page. */
  datatype Event =
    | Message(m: Incoming)
    | Disconnect(code: Option<int>)
    | Connect
    | SdkError(message: string)
    | End
    | Type(text: string)
    | Send(connect: Outcome, send: Outcome)
    | ConnectClick(start: VoiceStart)
    | MuteClick(wasMuted: bool)

  function Step(st: WidgetState, e: Event): WidgetState {
    match e
    case Message(m) => OnMessage(st, m)
    case Disconnect(code) => OnDisconnect(st, code)
    case Connect => OnConnect(st)
    case SdkError(message) => OnError(st, message)
    case End => EndConversation(st)
    case Type(text) => TypeText(st, text)
    case Send(connect, send) => SendText(st, connect, send).state
    case ConnectClick(start) => HandleConnect(st, start)
    case MuteClick(wasMuted) => ToggleMute(st, wasMuted)
  }

  function Run(st: WidgetState, events: seq<Event>): WidgetState
    decreases |events|
  {
    if events == [] then st else Run(Step(st, events[0]), events[1..])
  }

  /** The chat log is append-only: whatever happens, every earlier entry
      stays where it was. */
  lemma {:induction false} LogIsAppendOnly(st: WidgetState, events: seq<Event>)
    ensures st.messages <= Run(st, events).messages
    decreases |events|
  {
    if events != [] {
      StepAppends(st, events[0]);
      LogIsAppendOnly(Step(st, events[0]), events[1..]);
    }
  }

  /** No single event takes an entry out of the log or changes one. */
  lemma StepAppends(st: WidgetState, e: Event)
    ensures st.messages <= Step(st, e).messages
  {
  }
}
